=== FILE: README.md ===
# Perfume storefront: a Dafny model of its core

The system is a small perfume shop. It has two parts:

- **A Node.js backend** (`backend/server/index.js`). It keeps users, products, orders, sessions and magic links in memory. It serves password login, a magic-link sign-in, the product catalog (public reads, admin writes) and orders (customer checkout, admin status changes).
- **A React storefront.** It keeps a shopping cart (`CartContext.tsx`), prices products after their discount (`lib/pricing.ts`), and derives the category tabs and the sorted product list on the shop page (`Shop.tsx`).

## What the model covers

Every backend handler is a pure step function `(State, request fields, …) → Step(Response, State)`. Things that come from outside the handler are parameters:

- the `randomUUID` results;
- `Date.now()`;
- the `FRONTEND_URL` base;
- the outcome of the seller notification.

`Api.Handle` routes a request to its handler. Properties proved about it:

- Every handler keeps the store invariant `Domain.Valid`:
  - user ids are unique;
  - emails are unique ignoring case;
  - sessions, magic links and orders point at existing users;
  - discounts lie in [0, 90];
  - order ids are unique.
- Reads change nothing.
- Admin-only writes by anyone but an admin are refused and change nothing.
- A login session resolves back to its user.
- A magic link works only within its fifteen minutes, and only once.

On the storefront side:

- Adding, removing, updating and clearing are each proved against the item count, the price total and the per-product quantity.
- The discount arithmetic is bounded.
- Checkout sends items whose server-side total equals the cart's total.
- The shop page's category tabs are proved duplicate-free and in first-appearance order.
- Its price sorts are proved sorted, and to be permutations of the filtered list.

Prices are exact `real` numbers. JavaScript's `toFixed(2)` rounding and floating point are not modelled.

Modules, one per file:

| module | file | what it holds |
|---|---|---|
| `Common` | `common.dfy` | `Option`, `Clamp`, `FirstIndex`, `RemoveAt`, `SubsequenceOf` |
| `Strings` | `strings.dfy` | ECMAScript `trim`, ASCII `toLowerCase`, `startsWith`, `split("@")[0]` |
| `Pricing` | `pricing.dfy` | `getDiscountedPrice`, `hasDiscount` |
| `Cart` | `cart.dfy` | the cart context |
| `Domain` | `domain.dfy` | records, state, responses, the store invariant, the seeded state |
| `Validation` | `validation.dfy` | `normalizeDiscount`, `isValidAddress` |
| `Auth` | `auth.dfy` | login, magic link, bearer resolution, `requireAuth` and `requireAdmin` |
| `Catalog` | `catalog.dfy` | the product routes |
| `Orders` | `orders.dfy` | the order routes |
| `Checkout` | `checkout.dfy` | cart → order items |
| `Shop` | `shop.dfy` | category tabs and filtered products |
| `Api` | `api.dfy` | the router and cross-route properties |
| `Scenarios` | `scenarios.dfy` | sign-in on the seeded accounts |

## Model

| member | source | states |
|---|---|---|
| Common.Clamp | frontend/src/app/lib/pricing.ts:2 | `Math.min(hi, Math.max(lo, x))` lies in [lo, hi]. It is x inside the range, lo below it and hi above it. |
| Common.FirstIndex | backend/server/index.js:275 | The search behind `find` and `findIndex` returns the first position whose element satisfies the predicate. It returns None exactly when no element does. |
| Common.RemoveAt | backend/server/index.js:478 | `splice(i, 1)` shortens the array by one. Elements before i stay in place and later ones shift down by one. |
| Common.RemoveAtMultiset | backend/server/index.js:478 | `splice(i, 1)` removes exactly the element at i and nothing else. |
| Strings.TrimStart | backend/server/index.js:272 | Leading trim removes a blank prefix. What remains starts with a non-space character. |
| Strings.TrimEnd | backend/server/index.js:272 | Trailing trim removes a blank suffix. What remains ends with a non-space character. |
| Strings.Trim | backend/server/index.js:272 | `trim` strips both ends. It has no contract; Strings.TrimShape, Strings.TrimEmptyIffBlank and Strings.TrimOfTrimmed state what it does. |
| Strings.TrimEmptyIffBlank | backend/server/index.js:143 | The presence test `trim().length > 0` holds exactly when the text has a non-space character. |
| Strings.TrimShape | backend/server/index.js:319 | A trimmed text is no longer than the original and has no space at either end. |
| Strings.TrimOfTrimmed | backend/server/index.js:319 | A text with a non-space character at both ends is left unchanged by trim. |
| Strings.LowerChar | backend/server/index.js:319 | Lower-casing one character maps each capital A-Z to its small letter, 32 code points on, and keeps every other character. No capital remains. |
| Strings.Lower | backend/server/index.js:321 | `toLowerCase` lower-cases each character on its own. It has no contract; its meaning for the email comparison is stated by Strings.LowerEqualIgnoringCase. |
| Strings.LowerEqualIgnoringCase | backend/server/index.js:321 | Two emails have equal lower cases exactly when they have the same length and, position by position, the same character or the same ASCII letter in the other case. |
| Strings.LowerCharEqual | backend/server/index.js:321 | Two characters have the same lower case exactly when they are equal up to ASCII case. |
| Strings.LowerIdempotent | backend/server/index.js:345-350 | An email stored in lower case compares equal to its own lower case. |
| Strings.LowerOfLowercase | backend/server/index.js:13 | A text without upper-case ASCII letters is its own lower case. |
| Strings.LocalPart | backend/server/index.js:349 | `split("@")[0]` is the prefix before the first `@`. It contains no `@`, and it is the whole text when there is no `@`. |
| Pricing.SafeDiscount | frontend/src/app/lib/pricing.ts:2 | The applied discount lies in [0, 90]. A missing discount is 0, a negative one 0, and one above 90 is 90. |
| Pricing.GetDiscountedPrice | frontend/src/app/lib/pricing.ts:1-5 | The discounted price is never negative. For a non-negative price it is at least a tenth of the price and at most the price, and with no discount it is the price. A non-positive price gives 0. Its exact value is stated by Pricing.DiscountedValue. |
| Pricing.DiscountedValue | frontend/src/app/lib/pricing.ts:1-5 | A non-negative price p with applied discount c gives exactly p·(100 − c)/100. So a discount in [0, 90] is taken off as given, one above 90 leaves a tenth of the price, and a non-positive price gives 0. |
| Pricing.DiscountedBounds | frontend/src/app/lib/pricing.ts:3 | Taking off at most 90 percent keeps a tenth of a non-negative price and never raises it. A non-positive price stays non-positive. |
| Pricing.HasDiscount | frontend/src/app/lib/pricing.ts:7-9 | `hasDiscount` tests the raw discount without clamping, yet it holds exactly when the discount actually applied is positive. |
| Pricing.HasDiscountMeansPriceDrops | frontend/src/app/lib/pricing.ts:7-9 | `hasDiscount` does not clamp. Even so, for a positive price it holds exactly when the clamped discount is positive, and exactly when the discounted price is lower. |
| Cart.EffectivePrice | frontend/src/app/context/CartContext.tsx:29-32 | The cart's unit price lies between a tenth of a non-negative price and the price itself. For a non-negative price it equals the pricing helper's discounted price. |
| Cart.TotalItems | frontend/src/app/context/CartContext.tsx:65 | `totalItems`, the sum of the quantities. It has no contract; Cart.TotalItemsAppend, Cart.TotalsOfValid and the per-operation lemmas state its behaviour. |
| Cart.TotalPrice | frontend/src/app/context/CartContext.tsx:66 | `totalPrice`, the sum of the line totals. It has no contract; Cart.TotalPriceAppend, Cart.TotalPriceSplit and the per-operation price lemmas state its behaviour. |
| Cart.TotalPriceSplit | frontend/src/app/context/CartContext.tsx:66 | The price total is the total before a line, plus that line, plus the total after it. |
| Cart.TotalPriceReplace | frontend/src/app/context/CartContext.tsx:66 | Replacing one line changes the price total by exactly the difference of the two line totals. |
| Cart.Bump | frontend/src/app/context/CartContext.tsx:41-43 | The map in `addToCart` adds one unit to each item with the id and leaves every product and every other quantity alone. |
| Cart.AddToCart | frontend/src/app/context/CartContext.tsx:37-46 | A product already in the cart keeps its place and the ids are unchanged. A new product is appended with quantity 1. A valid cart stays valid. |
| Cart.AddToCartTotals | frontend/src/app/context/CartContext.tsx:37-66 | Adding a product adds one item to the count and one unit to that product's quantity, and no other quantity changes. It adds the product's effective price to the total; for a product already in the cart, the stored copy's price. |
| Cart.AddExistingTotals | frontend/src/app/context/CartContext.tsx:37-66 | Adding a product that is already in the cart adds one unit and the stored copy's effective price. |
| Cart.AddNewTotals | frontend/src/app/context/CartContext.tsx:37-66 | Adding a new product adds one unit and its effective price. |
| Cart.RemoveFromCart | frontend/src/app/context/CartContext.tsx:52-54 | Removal keeps exactly the items with another id. |
| Cart.RemoveFromCartTotals | frontend/src/app/context/CartContext.tsx:52-65 | Removal takes exactly that product's units out of the count, leaves none of it, and leaves every other product's quantity alone. |
| Cart.RemoveFromCartPrice | frontend/src/app/context/CartContext.tsx:52-66 | In a valid cart, removing a held product takes exactly its line total off the price total. |
| Cart.RemoveFromCartIsDeletion | frontend/src/app/context/CartContext.tsx:53 | In a cart without duplicate ids, removal deletes the one matching item and keeps the order of the rest. It is a no-op for an absent id. |
| Cart.RemoveFromCartValid | frontend/src/app/context/CartContext.tsx:53 | Removal keeps a cart valid. |
| Cart.RemoveAbsent | frontend/src/app/context/CartContext.tsx:53 | Removing an id the cart does not hold changes nothing. |
| Cart.RemoveOneAt | frontend/src/app/context/CartContext.tsx:53 | When one item alone holds the id, removal is deleting that item. |
| Cart.SetQuantity | frontend/src/app/context/CartContext.tsx:58-60 | The map in `updateQuantity` gives every item with the id the new quantity and changes nothing else. |
| Cart.UpdateQuantity | frontend/src/app/context/CartContext.tsx:56-61 | A quantity below 1 is ignored. Otherwise the matching item gets the new quantity and every other item is unchanged. Every item keeps its product and position, so the ids are kept, and so is validity. |
| Cart.UpdateQuantityTotals | frontend/src/app/context/CartContext.tsx:56-65 | Setting a held product's quantity to q replaces its units by q in the count. An absent product changes nothing. |
| Cart.UpdateQuantityAt | frontend/src/app/context/CartContext.tsx:56-61 | In a valid cart, updating a held product to q >= 1 rewrites exactly its one line, to quantity q. |
| Cart.UpdateQuantityPrice | frontend/src/app/context/CartContext.tsx:56-66 | In a valid cart, setting a held product to q >= 1 replaces its line total by that of q units at the same effective price. |
| Cart.ClearCart | frontend/src/app/context/CartContext.tsx:63 | The cleared cart is valid and has no items and a zero total. |
| Cart.TotalsOfValid | frontend/src/app/context/CartContext.tsx:65-66 | A valid cart holds at least one unit per item. With non-negative prices its total is not negative. |
| Cart.TotalItemsAppend | frontend/src/app/context/CartContext.tsx:65 | The item count of a concatenation is the sum of the counts. |
| Cart.TotalPriceAppend | frontend/src/app/context/CartContext.tsx:66 | The price total of a concatenation is the sum of the totals. |
| Cart.QuantityOfAppend | frontend/src/app/context/CartContext.tsx:65 | A product's quantity in a concatenation is the sum of its quantities in the two parts. |
| Cart.QuantityOfValid | frontend/src/app/context/CartContext.tsx:39-45 | In a cart without duplicate ids, a product's quantity is that of its one item, or 0 when absent. |
| Cart.OnlyAtOfValid | frontend/src/app/context/CartContext.tsx:39-45 | In a valid cart every item is the only one holding its id. |
| Cart.BumpAbsent | frontend/src/app/context/CartContext.tsx:41-43 | Bumping an id the cart does not hold changes nothing. |
| Cart.SetQuantityAbsent | frontend/src/app/context/CartContext.tsx:58-60 | Setting the quantity of an id the cart does not hold changes nothing. |
| Cart.BumpAtItems | frontend/src/app/context/CartContext.tsx:41-65 | Bumping the one item with the id adds one to the item count. |
| Cart.BumpAtPrice | frontend/src/app/context/CartContext.tsx:41-66 | Bumping the one item with the id adds its effective price to the total. |
| Cart.OneMoreUnit | frontend/src/app/context/CartContext.tsx:66 | One more unit adds the unit's effective price to the line total. |
| Cart.SetQuantityAt | frontend/src/app/context/CartContext.tsx:58-65 | Setting the quantity of the one item with the id to q changes the count by q minus its old quantity. |
| Cart.BumpQuantityOther | frontend/src/app/context/CartContext.tsx:41-43 | Bumping one id leaves every other id's quantity alone. |
| Domain.ValidWithSession | backend/server/index.js:329 | Mapping a token to an existing user keeps the store consistent. |
| Domain.ValidWithMagicLink | backend/server/index.js:359 | Recording a pending link for an existing user keeps the store consistent. |
| Domain.ValidWithoutMagicLink | backend/server/index.js:397 | Dropping a pending link keeps the store consistent. |
| Domain.ValidWithProducts | backend/server/index.js:445 | Any catalog whose discounts lie in [0, 90] keeps the store consistent. |
| Domain.ValidWithUser | backend/server/index.js:347-354 | Appending an account with a fresh id and a new email (ignoring case) adds exactly its id and keeps the store consistent. |
| Domain.SeedEmailsDiffer | backend/server/index.js:9-24 | The two seeded emails differ even ignoring case. |
| Domain.SeedValid | backend/server/index.js:9-131 | The server starts in a consistent state. |
| Domain.SeedDiscountsZero | backend/server/index.js:26-127 | No seeded product carries a discount. |
| Validation.NormalizeDiscount | backend/server/index.js:134-138 | The stored discount lies in [0, 90]. Missing and NaN read as 0, values in range are kept, and values outside it are clamped (infinities included). |
| Validation.NormalizeDiscountAgrees | backend/server/index.js:134-138 | Normalising twice is normalising once. The backend's clamp equals the storefront's `safeDiscount`. |
| Validation.EveryFieldPresent | backend/server/index.js:142-143 | `every` holds exactly when every listed field has a non-space character, an absent field counting as empty. |
| Validation.FieldText | backend/server/index.js:143 | `String(address[key] \|\| "")` for a text field: an absent field reads as "". It has no contract; Validation.IsValidAddress and Validation.BlankFieldInvalidates state its effect. |
| Validation.IsValidAddress | backend/server/index.js:140-144 | An address is valid exactly when it is an object whose seven required fields each have a non-space character. |
| Validation.BlankFieldInvalidates | backend/server/index.js:140-144 | Blanking any one required field makes the address invalid. |
| Auth.FindById | backend/server/index.js:275 | Lookup by id returns a user holding that id. It returns None exactly when no user holds it. |
| Auth.FindByIdUnique | backend/server/index.js:275 | In a consistent store, lookup by a user's id finds that user. |
| Auth.NormalizeEmail | backend/server/index.js:319 | `String(email).trim().toLowerCase()`. It has no contract; Auth.NormalizeEmailShape states its shape. |
| Auth.NormalizeEmailShape | backend/server/index.js:319 | A normalised email is no longer than what was sent, has no capital letter and has no white space at either end. |
| Auth.Login | backend/server/index.js:317-335 | 401 "Invalid credentials" with no change exactly when no user matches the email (trimmed, ignoring case) and the password. Otherwise 200 with a new session token for a matching user, and the only change is that session. |
| Auth.LoginSingleMatch | backend/server/index.js:321-333 | When exactly one user matches, login signs in as that user. |
| Auth.NameFromEmail | backend/server/index.js:349 | A new account's name is the email's local part, or "Customer" when that is empty. It is never empty. |
| Auth.MagicAccount | backend/server/index.js:345-355 | The account a request uses has the normalised email as its lower case. It is the stored user found by that email, or else a new customer with id `u_<uuid>`, that email and an empty password. |
| Auth.RequestMagicLink | backend/server/index.js:337-374 | 400 exactly for an email that is empty or has no `@`, and nothing changes. Otherwise it returns a link built from the frontend base and the magic token, for an account with that email. The magic token expires fifteen minutes later and the session token is mapped to that account. Products and orders are untouched. |
| Auth.RequestMagicLinkAccounts | backend/server/index.js:345-355 | An existing account with the email is reused. Otherwise exactly one customer is appended, with id `u_<uuid>`, named after the email, and with an empty password. |
| Auth.VerifyMagicLink | backend/server/index.js:376-405 | An unknown token gives 400 and no change. An expired one is deleted and gives 400. One whose user is gone is deleted and gives 404. Otherwise it is deleted and a session is issued for its user. The token is never pending afterwards. |
| Auth.ResolveBearer | backend/server/index.js:269-276 | A caller is found exactly when the header starts with "Bearer " and its trimmed token maps to a non-empty id of an existing user. That user is then the one returned. |
| Auth.RequireAuth | backend/server/index.js:278-285 | The caller is let through exactly when the header resolves. Otherwise the answer is 401 "Unauthorized". |
| Auth.RequireAdmin | backend/server/index.js:287-295 | Only an admin caller is let through. An unknown caller gets 401 and a known non-admin gets 403 "Admin access required". |
| Auth.Me | backend/server/index.js:407-412 | 200 with the caller's public profile exactly when the header resolves, otherwise 401. |
| Auth.LoginThenResolve | backend/server/index.js:269-335 | A session issued by login resolves, as a bearer token, to the user who logged in. |
| Auth.ResolveFreshSession | backend/server/index.js:269-276 | Mapping a token to a stored user's id makes the token resolve to that user. |
| Auth.RequestThenVerify | backend/server/index.js:357-402 | A magic link verified within fifteen minutes of its request signs in the account it was issued for. Verified any later, it reports "Magic link expired". |
| Auth.VerifyIsSingleUse | backend/server/index.js:378-397 | A second verification of the same token is refused with 400 and changes nothing. |
| Auth.VerifyNeverUserNotFound | backend/server/index.js:390-395 | In a consistent store, verification never answers 404. |
| Auth.MagicAccountAcceptsEmptyPassword | backend/server/index.js:317-354 | An account created by a magic-link request can be signed into by password login with an empty password. |
| Auth.LoginPreservesValid | backend/server/index.js:317-335 | Login keeps the store consistent. |
| Auth.MagicAccountFits | backend/server/index.js:345-354 | The account a request uses either exists already or has a fresh non-empty id and an email unused ignoring case. |
| Auth.RequestMagicLinkPreservesValid | backend/server/index.js:337-374 | A magic-link request keeps the store consistent when the minted account id is fresh. |
| Auth.VerifyMagicLinkPreservesValid | backend/server/index.js:376-405 | Verification keeps the store consistent. |
| Catalog.TextOr | backend/server/index.js:437-442 | `String(x \|\| fallback)` gives the field when it is non-empty and the fallback otherwise. |
| Catalog.FindProduct | backend/server/index.js:454 | Product lookup returns the first position holding the id, or None exactly when no product holds it. |
| Catalog.ListProducts | backend/server/index.js:414-417 | The listing is 200 with the whole catalog in store order. |
| Catalog.GetProduct | backend/server/index.js:419-428 | 404 "Product not found" exactly when no product has the id. Otherwise 200 with the first stored product carrying that id: no earlier product has it. |
| Catalog.NewProduct | backend/server/index.js:435-444 | A created product has the given id and a normalised discount in [0, 90]. Its name defaults to "Unnamed Product" and its category to "General", neither empty. A sent price, image, scent and isNew are stored as given. A missing price is 0, a missing or empty image or scent is empty, and a missing isNew is false. |
| Catalog.CreateProduct | backend/server/index.js:430-448 | Non-admins are refused by the admin gate with no change. An admin's product is put at the front of the catalog and returned with 201. |
| Catalog.Merge | backend/server/index.js:460-463 | Fields in the body replace the stored ones. A discount in the body is re-normalised and an absent one is kept. An empty body changes nothing. |
| Catalog.UpdateProduct | backend/server/index.js:450-467 | Behind the admin gate, an absent id gives 404 with no change. Otherwise only the first product with the id is replaced in place by its merge, and the merge is returned. |
| Catalog.DeleteProduct | backend/server/index.js:469-481 | Behind the admin gate, an absent id gives 404 with no change. Otherwise exactly the first product with the id is removed, the others keep their order, and the removed product is returned. |
| Catalog.CreateProductPreservesValid | backend/server/index.js:430-448 | Creating a product keeps the store consistent. |
| Catalog.UpdateProductPreservesValid | backend/server/index.js:450-467 | Updating a product keeps the store consistent. |
| Catalog.DeleteProductPreservesValid | backend/server/index.js:469-481 | Deleting a product keeps the store consistent. |
| Catalog.UpdateClampsDiscount | backend/server/index.js:461-462 | An update sending discount 150 stores 90, and one sending -5 stores 0. |
| Orders.OrderTotalAppend | backend/server/index.js:500 | The order total of a concatenation is the sum of the totals. |
| Orders.OrderTotalNonNegative | backend/server/index.js:500 | With no negative price or quantity, the order total is not negative. |
| Orders.OrderTotal | backend/server/index.js:500 | The `reduce` summing price times quantity. It has no contract; Orders.OrderTotalAppend, Orders.OrderTotalNonNegative and Checkout.CheckoutTotalMatchesCart state its behaviour. |
| Orders.VisibleOrders | backend/server/index.js:486 | An admin sees every order. A customer sees exactly the orders they own, each as often as it is stored, in store order. |
| Orders.OwnedBy | backend/server/index.js:486 | The filter keeps exactly the orders of that user, with their multiplicities, as an in-order subsequence of the store. |
| Orders.ListOrders | backend/server/index.js:483-489 | An unknown caller gets 401. Otherwise 200 with the orders visible to the caller. |
| Orders.ListOrdersScoped | backend/server/index.js:483-489 | A customer's listing holds every order of theirs and no other. An admin's holds every order. |
| Orders.NewOrder | backend/server/index.js:500-510 | A new order belongs to the caller and carries their email, the items, the address and the time. It is "pending", has no dispatch record, and its total is the sum of price times quantity. |
| Orders.CreateOrder | backend/server/index.js:491-516 | An unknown caller gets 401 and an invalid address 400, with nothing stored. Otherwise exactly one order is put at the front. If the notification succeeds, the order records the dispatch and is returned with 201. If it fails the reply is 500 but the order stays stored. |
| Orders.FindOrder | backend/server/index.js:522 | Order lookup returns the first position holding the id, or None exactly when none holds it. |
| Orders.NextStatus | backend/server/index.js:528 | A non-empty requested status replaces the old one. An empty one keeps it. |
| Orders.UpdateOrderStatus | backend/server/index.js:518-531 | Behind the admin gate, an absent id gives 404 with no change. Otherwise only the status of the first order with the id changes, to the requested text or its own, and that order is returned. |
| Orders.PrependOrderPreservesValid | backend/server/index.js:511 | Putting in front an order with a fresh id, an existing owner and a status keeps the store consistent. |
| Orders.CreateOrderPreservesValid | backend/server/index.js:491-516 | Checkout keeps the store consistent when the order id is fresh. |
| Orders.RewriteOrdersPreservesValid | backend/server/index.js:528 | Changing orders in place without touching their ids or owners, and keeping every status non-empty, keeps the store consistent. |
| Orders.SetStatusKeepsStatuses | backend/server/index.js:528 | A status change never leaves an order with an empty status. |
| Orders.UpdateOrderStatusPreservesValid | backend/server/index.js:518-531 | A status change keeps the store consistent. |
| Checkout.CheckoutItems | frontend/src/app/pages/Cart.tsx:40-47 | Each cart item becomes one order item at the same position, with the same id, name and quantity. Its unit price is `getDiscountedPrice` of the product's price and discount, and is never negative. |
| Checkout.CheckoutTotalMatchesCart | frontend/src/app/pages/Cart.tsx:40-47 | With non-negative prices, the total the server computes from the submitted items equals the cart's `totalPrice`. |
| Checkout.NegativePriceTotalsDiffer | frontend/src/app/pages/Cart.tsx:40-47 | A stored negative price makes the two totals part. One unit at −100 shows a cart total of −100 but is ordered at a total of 0, because `getEffectivePrice` does not clamp and `getDiscountedPrice` does. |
| Shop.Distinct | frontend/src/app/pages/Shop.tsx:30 | Iterating `new Set(s)` yields each value of s exactly once, in order of first appearance. |
| Shop.CategoryTabs | frontend/src/app/pages/Shop.tsx:30 | The tabs start with "All", followed by every product category exactly once, in order of first appearance. |
| Shop.InCategory | frontend/src/app/pages/Shop.tsx:35 | The filter keeps, in order, exactly the products of the category, with their multiplicities. |
| Shop.Insert | frontend/src/app/pages/Shop.tsx:37-38 | Inserting into a sorted list keeps it sorted and adds exactly the new product. |
| Shop.SortByPrice | frontend/src/app/pages/Shop.tsx:37-38 | The price sort is ordered (ascending, or descending) and is a permutation of its input. |
| Shop.FilteredProducts | frontend/src/app/pages/Shop.tsx:32-42 | With no price order chosen, the list is the catalog ("All") or its category filter. A price order gives a list sorted that way. The result always holds exactly the products of the category. "Newest" is not determined. |
| Api.Handle | backend/server/index.js:297-533 | The router sends each request to its handler, with the environment's fresh ids, clock, frontend base and notification outcome. It has no contract; the Api lemmas below state what holds across routes. |
| Api.ReadsChangeNothing | backend/server/index.js:312-533 | Health, profile, product reads, order listing and unknown routes never change the store. |
| Api.NonAdminWritesRefused | backend/server/index.js:430-531 | Product writes and status changes by anyone but an admin are refused with 401 or 403 and change nothing. |
| Api.NotFoundChangesNothing | backend/server/index.js:419-533 | Every 404 leaves the store unchanged, except on magic-link verification. |
| Api.HandlePreservesValid | backend/server/index.js:297-537 | Every routed request keeps the store consistent, given fresh ids. |
| Api.AuthRoutesPreserveValid | backend/server/index.js:317-405 | The sign-in routes keep the store consistent. |
| Api.CatalogRoutesPreserveValid | backend/server/index.js:430-481 | The product write routes keep the store consistent. |
| Api.OrderRoutesPreserveValid | backend/server/index.js:491-531 | The order write routes keep the store consistent. |
| Scenarios.AdminEmailLower | backend/server/index.js:13 | The seeded admin email is lower-case. |
| Scenarios.AdminEmailTrimmed | backend/server/index.js:13 | The seeded admin email has no surrounding spaces. |
| Scenarios.AdminEmailNormal | backend/server/index.js:9-24 | The seeded admin email is already normalised, and the other seeded account's email differs from it. |
| Scenarios.SeedAdminLogin | backend/server/index.js:317-335 | With the seeded accounts, the admin's email and password yield a session for the admin. |
| Scenarios.SeedAdminWrongPassword | backend/server/index.js:317-335 | With the seeded accounts, the admin email with any other password gets 401. |

## Left out

- HTTP plumbing is not modelled: the server, CORS headers, `OPTIONS` preflight and body parsing. A request arrives already routed, with its body given as the typed fields the handlers read. A body that is not JSON, and the 500 from the catch-all other than a failed seller notification (which Orders.CreateOrder models), are not modelled (backend/server/index.js:237-311 and the catch at 534-536).
- Non-string JSON values in text fields are not modelled: they are taken to be strings already. A product price is taken to be a number, so a non-numeric price that would become NaN is not modelled. Order `items` are given as a sequence; the `Array.isArray` fallback to an empty list is assumed done.
- `notifySellerByEmail` is not modelled: its message formatting, HTTPS request and configuration check. Only its outcome is a parameter: delivered with an optional provider id, or failed with the text `String(error)` renders (backend/server/index.js:154-235).
- `randomUUID`, `Date.now()` and `FRONTEND_URL` are parameters. The health timestamp and an order's `createdAt` are kept as the clock value, not its ISO text.
- Floating point and `toFixed(2)` are not modelled: prices are exact reals.
- Pricing.GetDiscountedPrice: states the price before its rounding to two decimals, because rounding is not modelled.
- Checkout.CheckoutTotalMatchesCart: equates the totals before each unit price is rounded to two decimals. With the rounding, the two totals can differ by the rounding error.
- Checkout.CheckoutTotalMatchesCart: holds only when no price in the cart is negative. Product creation stores `Number(body.price || 0)` without a sign check (backend/server/index.js:438), so a negative price can reach the cart. The cart total then keeps it negative, while the submitted unit price is clamped to 0. Checkout.NegativePriceTotalsDiffer exhibits such a cart.
- Orders.CreateOrder: the 500 body carries the notification's error text as given; how `String(error)` renders an `Error` is not modelled.
- Interleaving of requests is not modelled: each handler runs as one atomic step. In the source, checkout stores the order, waits for the notification, then writes the dispatch through the order object (backend/server/index.js:511-514). A status change or another checkout can run during that wait. The 201 reply then carries the status as changed, and the order need not be first any more.
- Catalog.Merge: a PUT body can carry keys other than the eight product fields, and null values; the spread stores them in the product too (backend/server/index.js:460). The model's patch has only the eight fields, each typed.
- The server's console logging is not modelled, including the line that logs each magic link with its email (backend/server/index.js:365): it changes no state and no reply.
- `formatPKR` (currency display) is presentation and is not modelled.
- Strings.Lower: covers the ASCII letters only. Unicode case mapping is not modelled.
- Shop.FilteredProducts: for "Newest" the result is reported as not determined (None). Its comparator `(a) => a.isNew ? -1 : 1` is inconsistent, so the order depends on the engine's sort algorithm. The price sorts are proved ordered and a permutation, but their stability is not stated.
- Shop.SortByPrice: the result is proved sorted and a permutation of its input. That products of equal price keep their relative order (the stability of `Array.prototype.sort`) is not stated.
- Cart quantities are integers. The toasts, the React state plumbing and the frontend's API client are not modelled.
- The admin dashboard, pages other than the shop and cart pages, and components are not part of this model.

=== FILE: api.dfy ===
/** The request dispatcher (backend/server/index.js:297-533) as one step
    function over the store, with the environment's fresh ids, clock,
    frontend address and notification outcome as parameters; and the
    properties that hold across all routes. */
module Api {
  import opened Common
  import opened Strings
  import opened Domain
  import opened Validation
  import opened Auth
  import opened Catalog
  import opened Orders

  /** A request that has been routed by path and method. `auth` is the
      Authorization header ("" when absent); bodies are given as the fields
      the handlers read. */
  datatype Request =
    | Health
    | PostLogin(email: string, password: string)
    | PostMagicRequest(email: string)
    | PostMagicVerify(token: string)
    | GetMe(auth: string)
    | GetProducts
    | GetProductById(id: string)
    | PostProduct(auth: string, input: ProductInput)
    | PutProduct(auth: string, id: string, patch: ProductPatch)
    | DeleteProductById(auth: string, id: string)
    | GetOrders(auth: string)
    | PostOrder(auth: string, items: seq<OrderItem>, address: AddressInput)
    | PatchOrder(auth: string, id: string, status: string)
    | Unrouted

  /** What the handlers take from outside: `randomUUID` results (one for a
      new account, one for a magic token, one for a session token, one for a
      new product or order), `Date.now()`, FRONTEND_URL and the outcome of the
      seller notification. */
  datatype Env = Env(
    userUuid: string,
    magicToken: string,
    sessionToken: string,
    recordId: string,
    now: int,
    frontendBase: string,
    notify: NotifyOutcome)

  function Handle(s: State, req: Request, env: Env): Step {
    match req
    case Health => Step(Response(200, HealthBody(true, env.now)), s)
    case PostLogin(email, password) => Login(s, email, password, env.sessionToken)
    case PostMagicRequest(email) =>
      RequestMagicLink(s, email, env.userUuid, env.magicToken, env.sessionToken, env.now, env.frontendBase)
    case PostMagicVerify(token) => VerifyMagicLink(s, token, env.sessionToken, env.now)
    case GetMe(auth) => Step(Me(s, auth), s)
    case GetProducts => Step(ListProducts(s), s)
    case GetProductById(id) => Step(GetProduct(s, id), s)
    case PostProduct(auth, input) => CreateProduct(s, auth, input, env.recordId)
    case PutProduct(auth, id, patch) => UpdateProduct(s, auth, id, patch)
    case DeleteProductById(auth, id) => DeleteProduct(s, auth, id)
    case GetOrders(auth) => Step(ListOrders(s, auth), s)
    case PostOrder(auth, items, address) => CreateOrder(s, auth, items, address, env.recordId, env.now, env.notify)
    case PatchOrder(auth, id, status) => UpdateOrderStatus(s, auth, id, status)
    case Unrouted => Step(Response(404, Message("Route not found")), s)
  }

  /** The environment's fresh ids are not in use: the id a new account would
      get and the id a new order would get. */
  predicate Fresh(env: Env, s: State) {
    "u_" + env.userUuid !in UserIds(s.users) && env.recordId !in OrderIds(s.orders)
  }

  predicate ReadOnly(req: Request) {
    req.Health? || req.GetMe? || req.GetProducts? || req.GetProductById? || req.GetOrders? || req.Unrouted?
  }

  predicate AdminOnly(req: Request) {
    req.PostProduct? || req.PutProduct? || req.DeleteProductById? || req.PatchOrder?
  }

  predicate IsAdminCaller(s: State, header: string) {
    ResolveBearer(s, header).Some? && ResolveBearer(s, header).value.role == Admin
  }

  /** Reads never change the store. */
  lemma ReadsChangeNothing(s: State, req: Request, env: Env)
    requires ReadOnly(req)
    ensures Handle(s, req, env).state == s
  {
  }

  /** Admin-only writes by anyone but an admin are refused with 401 or 403
      and change nothing. */
  lemma NonAdminWritesRefused(s: State, req: Request, env: Env)
    requires AdminOnly(req) && !IsAdminCaller(s, req.auth)
    ensures Handle(s, req, env).state == s
    ensures Handle(s, req, env).response.status in {401, 403}
  {
  }

  /** A 404 changes nothing, except on magic-link verification, which
      consumes the link even when its user is gone. */
  lemma NotFoundChangesNothing(s: State, req: Request, env: Env)
    requires !req.PostMagicVerify?
    ensures Handle(s, req, env).response.status == 404 ==> Handle(s, req, env).state == s
  {
  }

  /** Every request keeps the store consistent, given fresh ids. */
  lemma HandlePreservesValid(s: State, req: Request, env: Env)
    requires Valid(s) && Fresh(env, s)
    ensures Valid(Handle(s, req, env).state)
  {
    if req.PostLogin? || req.PostMagicRequest? || req.PostMagicVerify? {
      AuthRoutesPreserveValid(s, req, env);
    } else if req.PostProduct? || req.PutProduct? || req.DeleteProductById? {
      CatalogRoutesPreserveValid(s, req, env);
    } else if req.PostOrder? || req.PatchOrder? {
      OrderRoutesPreserveValid(s, req, env);
    } else {
      ReadsChangeNothing(s, req, env);
    }
  }

  lemma AuthRoutesPreserveValid(s: State, req: Request, env: Env)
    requires Valid(s) && Fresh(env, s)
    requires req.PostLogin? || req.PostMagicRequest? || req.PostMagicVerify?
    ensures Valid(Handle(s, req, env).state)
  {
    match req
    case PostLogin(email, password) => LoginPreservesValid(s, email, password, env.sessionToken);
    case PostMagicRequest(email) =>
      RequestMagicLinkPreservesValid(s, email, env.userUuid, env.magicToken, env.sessionToken, env.now, env.frontendBase);
    case PostMagicVerify(token) => VerifyMagicLinkPreservesValid(s, token, env.sessionToken, env.now);
  }

  lemma CatalogRoutesPreserveValid(s: State, req: Request, env: Env)
    requires Valid(s)
    requires req.PostProduct? || req.PutProduct? || req.DeleteProductById?
    ensures Valid(Handle(s, req, env).state)
  {
    match req
    case PostProduct(auth, input) => CreateProductPreservesValid(s, auth, input, env.recordId);
    case PutProduct(auth, id, patch) => UpdateProductPreservesValid(s, auth, id, patch);
    case DeleteProductById(auth, id) => DeleteProductPreservesValid(s, auth, id);
  }

  lemma OrderRoutesPreserveValid(s: State, req: Request, env: Env)
    requires Valid(s) && Fresh(env, s)
    requires req.PostOrder? || req.PatchOrder?
    ensures Valid(Handle(s, req, env).state)
  {
    match req
    case PostOrder(auth, items, address) => CreateOrderPreservesValid(s, auth, items, address, env.recordId, env.now, env.notify);
    case PatchOrder(auth, id, status) => UpdateOrderStatusPreservesValid(s, auth, id, status);
  }
}

=== FILE: auth.dfy ===
/** Authentication (backend/server/index.js:269-295, 317-412): password
    login, the magic-link request and verification, bearer-token resolution
    and the two gates protected routes go through. Fresh tokens and ids
    (`randomUUID`) and the clock (`Date.now`) are parameters. */
module Auth {
  import opened Common
  import opened Strings
  import opened Domain

  /** A magic link works for fifteen minutes. */
  const MagicLinkLifetimeMs: int := 15 * 60 * 1000

  /** `String(body.email || "").trim().toLowerCase()`. */
  function NormalizeEmail(email: string): string {
    Lower(Trim(email))
  }

  /** A normalised email is no longer than what was sent, has no capital
      letter, and has no white space at either end. */
  lemma NormalizeEmailShape(email: string)
    ensures var r := NormalizeEmail(email);
      && |r| <= |email|
      && (forall i :: 0 <= i < |r| ==> !IsUpper(r[i]))
      && (|r| > 0 ==> !IsSpace(r[0]) && !IsSpace(r[|r| - 1]))
  {
    TrimShape(email);
  }

  /** `users.find(u => u.email.toLowerCase() === email)`, as an index. */
  function FindByEmail(users: seq<User>, email: string): Option<nat> {
    FirstIndex(users, (u: User) => Lower(u.email) == email)
  }

  /** `users.find(u => u.id === id)`, as an index. */
  function FindById(users: seq<User>, id: string): (r: Option<nat>)
    ensures r.Some? ==> r.value < |users| && users[r.value].id == id
    ensures r.None? <==> id !in UserIds(users)
  {
    var r := FirstIndex(users, (u: User) => u.id == id);
    assert r.None? ==> forall u :: u in users ==> u.id != id by {
      if r.None? {
        forall u | u in users ensures u.id != id {
          var j :| 0 <= j < |users| && users[j] == u;
        }
      }
    }
    r
  }

  /** In a store with unique ids, the user found by id is the one holding it. */
  lemma FindByIdUnique(s: State, i: nat)
    requires Valid(s) && i < |s.users|
    ensures FindById(s.users, s.users[i].id) == Some(i)
  {
  }

  predicate CredentialsMatch(u: User, email: string, password: string) {
    Lower(u.email) == NormalizeEmail(email) && u.password == password
  }

  // ----- POST /auth/login -----

  /** Password login: the first user whose email matches ignoring case and
      whose password matches exactly gets a new session `token`; otherwise
      401 and nothing changes. */
  function Login(s: State, email: string, password: string, token: string): (r: Step)
    ensures r.response.status == 401 <==> forall i :: 0 <= i < |s.users| ==> !CredentialsMatch(s.users[i], email, password)
    ensures r.response.status == 401 ==> r.state == s && r.response.body == Message("Invalid credentials")
    ensures r.response.status != 401 ==>
      && r.response.status == 200
      && r.response.body.Session?
      && r.response.body.token == token
      && (exists i :: 0 <= i < |s.users| && CredentialsMatch(s.users[i], email, password)
                      && r.response.body.user == Public(s.users[i]))
      && r.state == s.(sessions := s.sessions[token := r.response.body.user.id])
  {
    match FirstIndex(s.users, (u: User) => CredentialsMatch(u, email, password))
    case None => Step(Response(401, Message("Invalid credentials")), s)
    case Some(i) =>
      var u := s.users[i];
      Step(Response(200, Session(token, Public(u))), s.(sessions := s.sessions[token := u.id]))
  }

  /** When exactly one user matches, login signs in as that user. */
  lemma LoginSingleMatch(s: State, email: string, password: string, token: string, k: nat)
    requires k < |s.users| && CredentialsMatch(s.users[k], email, password)
    requires forall j :: 0 <= j < |s.users| && j != k ==> !CredentialsMatch(s.users[j], email, password)
    ensures Login(s, email, password, token).response == Response(200, Session(token, Public(s.users[k])))
  {
  }

  // ----- POST /auth/magic-link/request -----

  /** The display name of a new magic-link account: the part of the email
      before the first `@`, or "Customer" when that part is empty. */
  function NameFromEmail(email: string): (r: string)
    ensures r != ""
    ensures '@' !in r
    ensures LocalPart(email) != "" ==> r == LocalPart(email)
  {
    var local := LocalPart(email);
    if local == "" then "Customer" else local
  }

  /** A well-formed email for the magic-link request: non-empty and containing `@`. */
  predicate EmailAccepted(email: string) {
    NormalizeEmail(email) != "" && '@' in NormalizeEmail(email)
  }

  /** The account a magic-link request for `email` uses: an existing one with
      that email, or the customer it creates with id `"u_" + userUuid`. */
  function MagicAccount(users: seq<User>, email: string, userUuid: string): (r: User)
    ensures Lower(r.email) == NormalizeEmail(email)
    ensures FindByEmail(users, NormalizeEmail(email)).Some? ==> r in users
    ensures FindByEmail(users, NormalizeEmail(email)).None? ==>
      r.id == "u_" + userUuid && r.email == NormalizeEmail(email) && r.password == "" && r.role == Customer
  {
    LowerIdempotent(Trim(email));
    var e := NormalizeEmail(email);
    match FindByEmail(users, e)
    case Some(i) => users[i]
    case None => User("u_" + userUuid, NameFromEmail(e), e, "", Customer)
  }

  /** The magic-link request: a malformed email gets 400 and nothing changes;
      otherwise the account with that email is reused or exactly one customer
      is created for it, and one magic token (expiring fifteen minutes from
      `now`) and one session token are issued to it. */
  function RequestMagicLink(s: State, email: string, userUuid: string, magicToken: string,
                            sessionToken: string, now: int, frontendBase: string): (r: Step)
    ensures r.response.status == 400 <==> !EmailAccepted(email)
    ensures r.response.status == 400 ==> r.state == s && r.response.body == Message("Valid email is required")
    ensures r.response.status != 400 ==>
      var u := MagicAccount(s.users, email, userUuid);
      && r.response.status == 200
      && r.response.body == MagicLink("Email confirmed instantly", frontendBase + "/login?token=" + magicToken,
                                      sessionToken, Public(u))
      && Lower(u.email) == NormalizeEmail(email)
      && r.state.products == s.products && r.state.orders == s.orders
      && r.state.magicLinks == s.magicLinks[magicToken := MagicEntry(u.id, now + MagicLinkLifetimeMs)]
      && r.state.sessions == s.sessions[sessionToken := u.id]
  {
    var e := NormalizeEmail(email);
    if e == "" || '@' !in e then
      Step(Response(400, Message("Valid email is required")), s)
    else
      var u := MagicAccount(s.users, email, userUuid);
      var users := if FindByEmail(s.users, e).Some? then s.users else s.users + [u];
      LowerIdempotent(Trim(email));
      Step(Response(200, MagicLink("Email confirmed instantly", frontendBase + "/login?token=" + magicToken,
                                   sessionToken, Public(u))),
           s.(users := users,
              magicLinks := s.magicLinks[magicToken := MagicEntry(u.id, now + MagicLinkLifetimeMs)],
              sessions := s.sessions[sessionToken := u.id]))
  }

  /** Which accounts a successful magic-link request leaves: the same ones
      when an account already has the email (ignoring case), or those plus
      exactly one new customer named after the email's local part. */
  lemma RequestMagicLinkAccounts(s: State, email: string, userUuid: string, magicToken: string,
                                 sessionToken: string, now: int, frontendBase: string)
    requires EmailAccepted(email)
    ensures var r := RequestMagicLink(s, email, userUuid, magicToken, sessionToken, now, frontendBase);
      var e := NormalizeEmail(email);
      && ((exists i :: 0 <= i < |s.users| && Lower(s.users[i].email) == e) ==> r.state.users == s.users)
      && ((forall i :: 0 <= i < |s.users| ==> Lower(s.users[i].email) != e) ==>
            r.state.users == s.users + [User("u_" + userUuid, NameFromEmail(e), e, "", Customer)])
  {
  }

  // ----- POST /auth/magic-link/verify -----

  /** Magic-link verification. The token is looked up after trimming; an
      unknown one gets 400; an expired one (`now > expiresAt`) is deleted and
      gets 400; one whose user is gone is deleted and gets 404; otherwise it is
      deleted and a new session token is issued. Whatever the outcome, the
      token is no longer pending afterwards. */
  function VerifyMagicLink(s: State, token: string, sessionToken: string, now: int): (r: Step)
    ensures Trim(token) !in r.state.magicLinks
    ensures r.state.users == s.users && r.state.products == s.products && r.state.orders == s.orders
    ensures Trim(token) !in s.magicLinks ==> r == Step(Response(400, Message("Invalid or expired magic link")), s)
    ensures Trim(token) in s.magicLinks ==>
      var saved := s.magicLinks[Trim(token)];
      var consumed := s.magicLinks - {Trim(token)};
      && (now > saved.expiresAt ==>
            r == Step(Response(400, Message("Magic link expired")), s.(magicLinks := consumed)))
      && (now <= saved.expiresAt && saved.userId !in UserIds(s.users) ==>
            r == Step(Response(404, Message("User not found")), s.(magicLinks := consumed)))
      && (now <= saved.expiresAt && saved.userId in UserIds(s.users) ==>
            && r.response.status == 200
            && r.response.body.Session?
            && r.response.body.token == sessionToken
            && r.response.body.user == Public(s.users[FindById(s.users, saved.userId).value])
            && r.state == s.(magicLinks := consumed, sessions := s.sessions[sessionToken := saved.userId]))
  {
    var t := Trim(token);
    if t !in s.magicLinks then
      Step(Response(400, Message("Invalid or expired magic link")), s)
    else
      var saved := s.magicLinks[t];
      if now > saved.expiresAt then
        Step(Response(400, Message("Magic link expired")), s.(magicLinks := s.magicLinks - {t}))
      else
        match FindById(s.users, saved.userId)
        case None =>
          Step(Response(404, Message("User not found")), s.(magicLinks := s.magicLinks - {t}))
        case Some(i) =>
          var u := s.users[i];
          Step(Response(200, Session(sessionToken, Public(u))),
               s.(magicLinks := s.magicLinks - {t}, sessions := s.sessions[sessionToken := u.id]))
  }

  // ----- Bearer tokens and gates -----

  /** The token of an `Authorization: Bearer <token>` header, trimmed. */
  function BearerToken(header: string): string
    requires StartsWith(header, "Bearer ")
  {
    Trim(header[7..])
  }

  /** `getUserFromAuthHeader`: a user only for a header that starts with
      "Bearer " and carries a session token mapped to an existing user. A
      missing header is the empty string. */
  function ResolveBearer(s: State, header: string): (r: Option<User>)
    ensures r.Some? <==>
      && StartsWith(header, "Bearer ")
      && BearerToken(header) in s.sessions
      && s.sessions[BearerToken(header)] != ""
      && s.sessions[BearerToken(header)] in UserIds(s.users)
    ensures r.Some? ==> r.value in s.users && r.value.id == s.sessions[BearerToken(header)]
  {
    if !StartsWith(header, "Bearer ") then None
    else
      var t := BearerToken(header);
      if t !in s.sessions || s.sessions[t] == "" then None
      else match FindById(s.users, s.sessions[t])
        case None => None
        case Some(i) => Some(s.users[i])
  }

  /** The outcome of a gate: the caller, or the response that refuses them. */
  datatype Gate = Allowed(user: User) | Denied(response: Response)

  /** `requireAuth`: 401 unless the header resolves to a user. */
  function RequireAuth(s: State, header: string): (r: Gate)
    ensures r.Allowed? <==> ResolveBearer(s, header).Some?
    ensures r.Allowed? ==> r.user == ResolveBearer(s, header).value
    ensures r.Denied? ==> r.response == Response(401, Message("Unauthorized"))
  {
    match ResolveBearer(s, header)
    case None => Denied(Response(401, Message("Unauthorized")))
    case Some(u) => Allowed(u)
  }

  /** `requireAdmin`: 401 for an unknown caller, 403 for a known one who is
      not an admin, and the admin otherwise. */
  function RequireAdmin(s: State, header: string): (r: Gate)
    ensures r.Allowed? <==> ResolveBearer(s, header).Some? && ResolveBearer(s, header).value.role == Admin
    ensures r.Allowed? ==> r.user == ResolveBearer(s, header).value
    ensures ResolveBearer(s, header).None? ==> r == Denied(Response(401, Message("Unauthorized")))
    ensures ResolveBearer(s, header).Some? && ResolveBearer(s, header).value.role != Admin ==>
      r == Denied(Response(403, Message("Admin access required")))
  {
    match RequireAuth(s, header)
    case Denied(resp) => Denied(resp)
    case Allowed(u) =>
      if u.role != Admin then Denied(Response(403, Message("Admin access required"))) else Allowed(u)
  }

  /** GET /auth/me: the caller's public projection, or 401. */
  function Me(s: State, header: string): (r: Response)
    ensures r.status == 200 <==> ResolveBearer(s, header).Some?
    ensures r.status == 200 ==> r.body == Profile(Public(ResolveBearer(s, header).value))
    ensures r.status != 200 ==> r == Response(401, Message("Unauthorized"))
  {
    match RequireAuth(s, header)
    case Denied(resp) => resp
    case Allowed(u) => Response(200, Profile(Public(u)))
  }

  // ----- Properties across handlers -----

  /** A session issued by login is honoured: presenting it as a bearer token
      resolves to exactly the user who logged in. */
  lemma LoginThenResolve(s: State, email: string, password: string, token: string)
    requires Valid(s)
    requires Login(s, email, password, token).response.status == 200
    requires Trim(token) == token
    ensures var r := Login(s, email, password, token);
      && ResolveBearer(r.state, "Bearer " + token).Some?
      && Public(ResolveBearer(r.state, "Bearer " + token).value) == r.response.body.user
  {
    var r := Login(s, email, password, token);
    var i :| 0 <= i < |s.users| && CredentialsMatch(s.users[i], email, password)
             && r.response.body.user == Public(s.users[i]);
    ResolveFreshSession(s, token, i);
  }

  /** Mapping a token to the id of a stored user makes that token resolve to
      that user. */
  lemma ResolveFreshSession(s: State, token: string, i: nat)
    requires Valid(s) && i < |s.users|
    requires Trim(token) == token
    ensures ResolveBearer(s.(sessions := s.sessions[token := s.users[i].id]), "Bearer " + token) == Some(s.users[i])
  {
    var header := "Bearer " + token;
    assert header[7..] == token;
    FindByIdUnique(s, i);
  }

  /** A magic link is honoured while it lasts: verifying it no later than
      fifteen minutes after it was requested signs in the account it was
      issued for, and verifying it any later reports it expired. */
  lemma RequestThenVerify(s: State, email: string, userUuid: string, magicToken: string,
                          sessionToken: string, now: int, frontendBase: string,
                          later: int, nextToken: string)
    requires Valid(s) && EmailAccepted(email)
    requires "u_" + userUuid !in UserIds(s.users)
    requires Trim(magicToken) == magicToken
    ensures var r := RequestMagicLink(s, email, userUuid, magicToken, sessionToken, now, frontendBase);
      var v := VerifyMagicLink(r.state, magicToken, nextToken, later);
      && (later <= now + MagicLinkLifetimeMs ==>
            v.response.status == 200 && v.response.body.Session? && v.response.body.user == r.response.body.user)
      && (later > now + MagicLinkLifetimeMs ==>
            v.response == Response(400, Message("Magic link expired")))
  {
    var r := RequestMagicLink(s, email, userUuid, magicToken, sessionToken, now, frontendBase);
    var u := MagicAccount(s.users, email, userUuid);
    var k: nat;
    if FindByEmail(s.users, NormalizeEmail(email)).Some? {
      k := FindByEmail(s.users, NormalizeEmail(email)).value;
    } else {
      k := |s.users|;
    }
    assert r.state.users[k] == u;
    if later <= now + MagicLinkLifetimeMs {
      RequestMagicLinkPreservesValid(s, email, userUuid, magicToken, sessionToken, now, frontendBase);
      FindByIdUnique(r.state, k);
    }
  }

  /** A magic link can be used at most once: whatever the first verification
      did, a second one with the same token is refused and changes nothing. */
  lemma VerifyIsSingleUse(s: State, token: string, t1: string, n1: int, t2: string, n2: int)
    ensures var r1 := VerifyMagicLink(s, token, t1, n1);
      VerifyMagicLink(r1.state, token, t2, n2) == Step(Response(400, Message("Invalid or expired magic link")), r1.state)
  {
  }

  /** In a consistent store every pending link belongs to an existing user,
      so verification never answers 404. */
  lemma VerifyNeverUserNotFound(s: State, token: string, sessionToken: string, now: int)
    requires Valid(s)
    ensures VerifyMagicLink(s, token, sessionToken, now).response.status != 404
  {
  }

  /** An account created by a magic-link request has an empty password, and
      login sends an empty password when none is given, so the account can be
      signed into by its email alone. */
  lemma MagicAccountAcceptsEmptyPassword(s: State, email: string, userUuid: string, magicToken: string,
                                         sessionToken: string, now: int, frontendBase: string, token: string)
    requires EmailAccepted(email)
    requires forall i :: 0 <= i < |s.users| ==> Lower(s.users[i].email) != NormalizeEmail(email)
    ensures var r := RequestMagicLink(s, email, userUuid, magicToken, sessionToken, now, frontendBase);
      Login(r.state, email, "", token).response.status == 200
  {
    var r := RequestMagicLink(s, email, userUuid, magicToken, sessionToken, now, frontendBase);
    var u := MagicAccount(s.users, email, userUuid);
    LowerIdempotent(Trim(email));
    assert r.state.users[|s.users|] == u;
    assert CredentialsMatch(u, email, "");
  }

  // ----- The store invariant -----

  lemma LoginPreservesValid(s: State, email: string, password: string, token: string)
    requires Valid(s)
    ensures Valid(Login(s, email, password, token).state)
  {
    var r := Login(s, email, password, token);
    if r.response.status != 401 {
      var i :| 0 <= i < |s.users| && CredentialsMatch(s.users[i], email, password)
                && r.response.body.user == Public(s.users[i]);
      assert s.users[i] in s.users;
      ValidWithSession(s, token, s.users[i].id);
    }
  }

  /** The account a successful magic-link request uses is in the store
      afterwards, and may be appended to it without breaking consistency. */
  lemma MagicAccountFits(s: State, email: string, userUuid: string)
    requires Valid(s) && EmailAccepted(email)
    requires "u_" + userUuid !in UserIds(s.users)
    ensures var e := NormalizeEmail(email);
      var u := MagicAccount(s.users, email, userUuid);
      FindByEmail(s.users, e).Some? ==> u in s.users
    ensures var e := NormalizeEmail(email);
      var u := MagicAccount(s.users, email, userUuid);
      FindByEmail(s.users, e).None? ==>
        && u.id != "" && u.id !in UserIds(s.users)
        && forall i :: 0 <= i < |s.users| ==> Lower(s.users[i].email) != Lower(u.email)
  {
    var e := NormalizeEmail(email);
    var u := MagicAccount(s.users, email, userUuid);
    if FindByEmail(s.users, e).None? {
      LowerIdempotent(Trim(email));
      assert Lower(u.email) == e;
      assert |u.id| >= 2;
    }
  }

  /** A magic-link request keeps the store consistent, provided the id it
      mints for a new account is not taken already. */
  lemma RequestMagicLinkPreservesValid(s: State, email: string, userUuid: string, magicToken: string,
                                       sessionToken: string, now: int, frontendBase: string)
    requires Valid(s)
    requires "u_" + userUuid !in UserIds(s.users)
    ensures Valid(RequestMagicLink(s, email, userUuid, magicToken, sessionToken, now, frontendBase).state)
  {
    var r := RequestMagicLink(s, email, userUuid, magicToken, sessionToken, now, frontendBase);
    if EmailAccepted(email) {
      var e := NormalizeEmail(email);
      var u := MagicAccount(s.users, email, userUuid);
      MagicAccountFits(s, email, userUuid);
      RequestMagicLinkAccounts(s, email, userUuid, magicToken, sessionToken, now, frontendBase);
      var t0 := if FindByEmail(s.users, e).Some? then s else s.(users := s.users + [u]);
      if FindByEmail(s.users, e).None? {
        ValidWithUser(s, u);
        assert r.state.users == s.users + [u];
      } else {
        assert r.state.users == s.users;
      }
      assert u.id in UserIds(t0.users);
      var t1 := t0.(magicLinks := s.magicLinks[magicToken := MagicEntry(u.id, now + MagicLinkLifetimeMs)]);
      ValidWithMagicLink(t0, magicToken, MagicEntry(u.id, now + MagicLinkLifetimeMs));
      ValidWithSession(t1, sessionToken, u.id);
      assert r.state == t1.(sessions := s.sessions[sessionToken := u.id]);
    }
  }

  lemma VerifyMagicLinkPreservesValid(s: State, token: string, sessionToken: string, now: int)
    requires Valid(s)
    ensures Valid(VerifyMagicLink(s, token, sessionToken, now).state)
  {
    var t := Trim(token);
    if t in s.magicLinks {
      ValidWithoutMagicLink(s, t);
      var s1 := s.(magicLinks := s.magicLinks - {t});
      var saved := s.magicLinks[t];
      if now <= saved.expiresAt && saved.userId in UserIds(s.users) {
        ValidWithSession(s1, sessionToken, saved.userId);
        assert VerifyMagicLink(s, token, sessionToken, now).state == s1.(sessions := s.sessions[sessionToken := saved.userId]);
      }
    }
  }
}

=== FILE: cart.dfy ===
/** The shopping cart kept by the storefront
    (frontend/src/app/context/CartContext.tsx): a sequence of items keyed by
    product id, with add, remove, set-quantity, clear and the two totals.
    The toast shown by `addToCart` is presentation and not modelled. */
module Cart {
  import opened Common
  import Pricing

  /** The fields of a product the cart keeps; the discount is optional. */
  datatype Product = Product(
    id: string,
    name: string,
    price: real,
    discountPercent: Option<real>,
    image: string,
    scent: string)

  /** A product spread into the cart with its quantity. */
  datatype CartItem = CartItem(product: Product, quantity: int)

  type Cart = seq<CartItem>

  /** The product ids of the cart, in cart order. */
  function Ids(cart: Cart): seq<string> {
    seq(|cart|, i requires 0 <= i < |cart| => cart[i].product.id)
  }

  /** Position `i` of the ids is the id of item `i`. */
  lemma IdsIndex(cart: Cart)
    ensures |Ids(cart)| == |cart|
    ensures forall i :: 0 <= i < |cart| ==> Ids(cart)[i] == cart[i].product.id
  {
  }

  /** The ids of a cart are its first id followed by the ids of the rest. */
  lemma IdsTail(cart: Cart)
    requires |cart| > 0
    ensures Ids(cart) == [cart[0].product.id] + Ids(cart[1..])
  {
  }

  /** What every cart operation keeps: ids are unique and every quantity is at least one. */
  predicate Valid(cart: Cart) {
    && (forall i, j :: 0 <= i < j < |cart| ==> cart[i].product.id != cart[j].product.id)
    && (forall i :: 0 <= i < |cart| ==> cart[i].quantity >= 1)
  }

  /** How many units of product `id` the cart holds. */
  function QuantityOf(cart: Cart, id: string): int {
    if |cart| == 0 then 0
    else (if cart[0].product.id == id then cart[0].quantity else 0) + QuantityOf(cart[1..], id)
  }

  /** `getEffectivePrice`: the unit price after the clamped discount. */
  function EffectivePrice(p: Product): (r: real)
    ensures p.price >= 0.0 ==> p.price / 10.0 <= r <= p.price
    ensures p.price >= 0.0 ==> r == Pricing.GetDiscountedPrice(p.price, p.discountPercent)
  {
    Pricing.DiscountedBounds(p.price, p.discountPercent);
    Pricing.Discounted(p.price, p.discountPercent)
  }

  /** `totalItems`: the sum of the quantities. */
  function TotalItems(cart: Cart): int {
    if |cart| == 0 then 0 else cart[0].quantity + TotalItems(cart[1..])
  }

  /** One line of `totalPrice`: effective unit price times quantity. */
  function LineTotal(item: CartItem): real {
    EffectivePrice(item.product) * item.quantity as real
  }

  /** `totalPrice`: the sum of the line totals. */
  function TotalPrice(cart: Cart): real {
    if |cart| == 0 then 0.0 else LineTotal(cart[0]) + TotalPrice(cart[1..])
  }

  /** The `prev.map` of `addToCart`: one more unit of every item with this id. */
  function Bump(cart: Cart, id: string): (r: Cart)
    ensures |r| == |cart|
    ensures forall i :: 0 <= i < |cart| ==> r[i].product == cart[i].product
    ensures forall i :: 0 <= i < |cart| ==>
      r[i].quantity == if cart[i].product.id == id then cart[i].quantity + 1 else cart[i].quantity
  {
    if |cart| == 0 then []
    else
      var head := if cart[0].product.id == id then cart[0].(quantity := cart[0].quantity + 1) else cart[0];
      [head] + Bump(cart[1..], id)
  }

  /** `addToCart`: a product already in the cart gets one more unit, in
      place; a new product is appended with quantity one. */
  function AddToCart(cart: Cart, p: Product): (r: Cart)
    ensures Valid(cart) ==> Valid(r)
    ensures p.id in Ids(cart) ==> Ids(r) == Ids(cart)
    ensures p.id in Ids(cart) ==> forall i :: 0 <= i < |cart| ==> r[i].product == cart[i].product
    ensures p.id !in Ids(cart) ==> r == cart + [CartItem(p, 1)]
  {
    IdsIndex(cart);
    if p.id in Ids(cart) then Bump(cart, p.id) else cart + [CartItem(p, 1)]
  }

  /** `removeFromCart`: the `filter` that drops every item with this id. */
  function RemoveFromCart(cart: Cart, id: string): (r: Cart)
    ensures forall x :: x in r <==> x in cart && x.product.id != id
    ensures id !in Ids(r)
  {
    if |cart| == 0 then []
    else
      var rest := RemoveFromCart(cart[1..], id);
      assert forall x :: x in cart <==> x == cart[0] || x in cart[1..];
      if cart[0].product.id == id then rest else [cart[0]] + rest
  }

  /** The `prev.map` of `updateQuantity`: every item with this id gets the new quantity. */
  function SetQuantity(cart: Cart, id: string, quantity: int): (r: Cart)
    ensures |r| == |cart|
    ensures forall i :: 0 <= i < |cart| ==> r[i].product == cart[i].product
    ensures forall i :: 0 <= i < |cart| ==>
      r[i].quantity == if cart[i].product.id == id then quantity else cart[i].quantity
  {
    if |cart| == 0 then []
    else
      var head := if cart[0].product.id == id then cart[0].(quantity := quantity) else cart[0];
      [head] + SetQuantity(cart[1..], id, quantity)
  }

  /** `updateQuantity`: a quantity below one is ignored; otherwise only the
      item with this id changes, and only in its quantity. */
  function UpdateQuantity(cart: Cart, id: string, quantity: int): (r: Cart)
    ensures quantity < 1 ==> r == cart
    ensures |r| == |cart|
    ensures forall i :: 0 <= i < |cart| ==> r[i].product == cart[i].product
    ensures Ids(r) == Ids(cart)
    ensures forall i :: 0 <= i < |cart| && cart[i].product.id != id ==> r[i] == cart[i]
    ensures quantity >= 1 ==> forall i :: 0 <= i < |cart| && cart[i].product.id == id ==> r[i].quantity == quantity
    ensures Valid(cart) ==> Valid(r)
  {
    if quantity < 1 then cart else SetQuantity(cart, id, quantity)
  }

  /** `clearCart`. */
  function ClearCart(): (r: Cart)
    ensures Valid(r) && TotalItems(r) == 0 && TotalPrice(r) == 0.0
  {
    []
  }

  /** A valid cart holds at least one unit per item, and with non-negative
      prices its total is never negative. */
  lemma {:induction false} TotalsOfValid(cart: Cart)
    requires Valid(cart)
    ensures TotalItems(cart) >= |cart|
    ensures (forall i :: 0 <= i < |cart| ==> cart[i].product.price >= 0.0) ==> TotalPrice(cart) >= 0.0
  {
    if |cart| > 0 {
      var rest := cart[1..];
      assert forall i :: 0 <= i < |rest| ==> rest[i] == cart[i + 1];
      TotalsOfValid(rest);
      var e := EffectivePrice(cart[0].product);
      if cart[0].product.price >= 0.0 {
        assert LineTotal(cart[0]) == e * cart[0].quantity as real >= 0.0;
      }
    }
  }

  // ----- Sums over concatenations -----

  lemma {:induction false} TotalItemsAppend(a: Cart, b: Cart)
    ensures TotalItems(a + b) == TotalItems(a) + TotalItems(b)
  {
    if |a| > 0 {
      assert (a + b)[1..] == a[1..] + b;
      TotalItemsAppend(a[1..], b);
    } else {
      assert a + b == b;
    }
  }

  lemma {:induction false} TotalPriceAppend(a: Cart, b: Cart)
    ensures TotalPrice(a + b) == TotalPrice(a) + TotalPrice(b)
  {
    if |a| > 0 {
      assert (a + b)[1..] == a[1..] + b;
      TotalPriceAppend(a[1..], b);
    } else {
      assert a + b == b;
    }
  }

  lemma {:induction false} QuantityOfAppend(a: Cart, b: Cart, id: string)
    ensures QuantityOf(a + b, id) == QuantityOf(a, id) + QuantityOf(b, id)
  {
    if |a| > 0 {
      assert (a + b)[1..] == a[1..] + b;
      QuantityOfAppend(a[1..], b, id);
    } else {
      assert a + b == b;
    }
  }

  /** In a cart without duplicate ids, the quantity of an id is that of its one item. */
  lemma {:induction false} QuantityOfValid(cart: Cart, id: string)
    requires Valid(cart)
    ensures id !in Ids(cart) ==> QuantityOf(cart, id) == 0
    ensures forall i :: 0 <= i < |cart| && cart[i].product.id == id ==> QuantityOf(cart, id) == cart[i].quantity
  {
    if |cart| > 0 {
      IdsTail(cart);
      QuantityOfValid(cart[1..], id);
      assert forall i :: 1 <= i < |cart| ==> cart[1..][i - 1] == cart[i];
      if cart[0].product.id == id {
        assert id !in Ids(cart[1..]);
      }
    }
  }

  // ----- Totals after each operation -----

  /** Position `i` is the only one holding `id`. */
  predicate OnlyAt(cart: Cart, id: string, i: nat) {
    && i < |cart| && cart[i].product.id == id
    && forall k :: 0 <= k < |cart| && k != i ==> cart[k].product.id != id
  }

  /** In a valid cart every item is the only one with its id. */
  lemma OnlyAtOfValid(cart: Cart, i: nat)
    requires Valid(cart) && i < |cart|
    ensures OnlyAt(cart, cart[i].product.id, i)
  {
    forall k | 0 <= k < |cart| && k != i
      ensures cart[k].product.id != cart[i].product.id
    {
      if k < i {
        assert cart[k].product.id != cart[i].product.id;
      }
    }
  }

  /** What the tail inherits from `OnlyAt`. */
  lemma OnlyAtTail(cart: Cart, id: string, i: nat)
    requires OnlyAt(cart, id, i)
    ensures i == 0 ==> id !in Ids(cart[1..])
    ensures i > 0 ==> OnlyAt(cart[1..], id, i - 1)
  {
    var rest := cart[1..];
    assert forall k :: 0 <= k < |rest| ==> rest[k] == cart[k + 1];
    if i == 0 {
      assert forall k :: 0 <= k < |rest| ==> Ids(rest)[k] != id;
    }
  }

  /** Mapping over a cart that does not hold the id changes nothing. */
  lemma BumpAbsent(cart: Cart, id: string)
    requires id !in Ids(cart)
    ensures Bump(cart, id) == cart
  {
    var r := Bump(cart, id);
    forall k | 0 <= k < |cart|
      ensures r[k] == cart[k]
    {
      assert Ids(cart)[k] != id;
    }
  }

  lemma SetQuantityAbsent(cart: Cart, id: string, q: int)
    requires id !in Ids(cart)
    ensures SetQuantity(cart, id, q) == cart
  {
    var r := SetQuantity(cart, id, q);
    forall k | 0 <= k < |cart|
      ensures r[k] == cart[k]
    {
      assert Ids(cart)[k] != id;
    }
  }

  /** One more unit of the one item at position `i` adds one to the count. */
  lemma {:induction false} BumpAtItems(cart: Cart, id: string, i: nat)
    requires OnlyAt(cart, id, i)
    ensures TotalItems(Bump(cart, id)) == TotalItems(cart) + 1
  {
    var rest := cart[1..];
    assert Bump(cart, id)[1..] == Bump(rest, id);
    OnlyAtTail(cart, id, i);
    if i == 0 {
      BumpAbsent(rest, id);
    } else {
      assert rest[i - 1] == cart[i];
      BumpAtItems(rest, id, i - 1);
    }
  }

  /** One more unit of the one item at position `i` adds that item's
      effective price to the total. */
  lemma {:induction false} BumpAtPrice(cart: Cart, id: string, i: nat)
    requires OnlyAt(cart, id, i)
    ensures TotalPrice(Bump(cart, id)) == TotalPrice(cart) + EffectivePrice(cart[i].product)
  {
    var rest := cart[1..];
    var b := Bump(cart, id);
    assert b[1..] == Bump(rest, id);
    OnlyAtTail(cart, id, i);
    if i == 0 {
      BumpAbsent(rest, id);
      assert b[0] == cart[0].(quantity := cart[0].quantity + 1);
      OneMoreUnit(cart[0]);
    } else {
      assert rest[i - 1] == cart[i];
      assert b[0] == cart[0];
      BumpAtPrice(rest, id, i - 1);
    }
  }

  /** One more unit adds the unit price to the line total. */
  lemma OneMoreUnit(item: CartItem)
    ensures LineTotal(item.(quantity := item.quantity + 1)) == LineTotal(item) + EffectivePrice(item.product)
  {
    var e := EffectivePrice(item.product);
    var n := item.quantity as real;
    assert (item.quantity + 1) as real == n + 1.0;
    assert e * (n + 1.0) == e * n + e;
  }

  /** Setting the quantity of the one item at position `i` to `q` replaces
      its units by `q` in the count. */
  lemma {:induction false} SetQuantityAt(cart: Cart, id: string, q: int, i: nat)
    requires OnlyAt(cart, id, i)
    ensures TotalItems(SetQuantity(cart, id, q)) == TotalItems(cart) - cart[i].quantity + q
  {
    var rest := cart[1..];
    assert SetQuantity(cart, id, q)[1..] == SetQuantity(rest, id, q);
    OnlyAtTail(cart, id, i);
    if i == 0 {
      SetQuantityAbsent(rest, id, q);
    } else {
      assert rest[i - 1] == cart[i];
      SetQuantityAt(rest, id, q, i - 1);
    }
  }

  /** Adding a product adds exactly one unit to the item count and its
      effective price to the total. For a product already in the cart the
      price is that of the copy the cart already holds, since `addToCart`
      keeps the old item's fields and only raises its quantity. */
  lemma AddToCartTotals(cart: Cart, p: Product)
    requires Valid(cart)
    ensures TotalItems(AddToCart(cart, p)) == TotalItems(cart) + 1
    ensures p.id !in Ids(cart) ==> TotalPrice(AddToCart(cart, p)) == TotalPrice(cart) + EffectivePrice(p)
    ensures forall i :: 0 <= i < |cart| && cart[i].product.id == p.id ==>
      TotalPrice(AddToCart(cart, p)) == TotalPrice(cart) + EffectivePrice(cart[i].product)
    ensures QuantityOf(AddToCart(cart, p), p.id) == QuantityOf(cart, p.id) + 1
    ensures forall other :: other != p.id ==> QuantityOf(AddToCart(cart, p), other) == QuantityOf(cart, other)
  {
    IdsIndex(cart);
    if p.id in Ids(cart) {
      AddExistingTotals(cart, p);
    } else {
      AddNewTotals(cart, p);
    }
  }

  lemma AddExistingTotals(cart: Cart, p: Product)
    requires Valid(cart) && p.id in Ids(cart)
    ensures TotalItems(AddToCart(cart, p)) == TotalItems(cart) + 1
    ensures forall i :: 0 <= i < |cart| && cart[i].product.id == p.id ==>
      TotalPrice(AddToCart(cart, p)) == TotalPrice(cart) + EffectivePrice(cart[i].product)
    ensures QuantityOf(AddToCart(cart, p), p.id) == QuantityOf(cart, p.id) + 1
    ensures forall other :: other != p.id ==> QuantityOf(AddToCart(cart, p), other) == QuantityOf(cart, other)
  {
    var r := Bump(cart, p.id);
    assert AddToCart(cart, p) == r;
    var i :| 0 <= i < |cart| && Ids(cart)[i] == p.id;
    OnlyAtOfValid(cart, i);
    BumpAtItems(cart, p.id, i);
    BumpAtPrice(cart, p.id, i);
    QuantityOfValid(cart, p.id);
    QuantityOfValid(r, p.id);
    assert r[i].product.id == p.id && r[i].quantity == cart[i].quantity + 1;
    forall other | other != p.id
      ensures QuantityOf(r, other) == QuantityOf(cart, other)
    {
      BumpQuantityOther(cart, p.id, other);
    }
  }

  lemma AddNewTotals(cart: Cart, p: Product)
    requires p.id !in Ids(cart)
    ensures TotalItems(AddToCart(cart, p)) == TotalItems(cart) + 1
    ensures TotalPrice(AddToCart(cart, p)) == TotalPrice(cart) + EffectivePrice(p)
    ensures QuantityOf(AddToCart(cart, p), p.id) == QuantityOf(cart, p.id) + 1
    ensures forall other :: other != p.id ==> QuantityOf(AddToCart(cart, p), other) == QuantityOf(cart, other)
  {
    var one := [CartItem(p, 1)];
    assert AddToCart(cart, p) == cart + one;
    TotalItemsAppend(cart, one);
    TotalPriceAppend(cart, one);
    QuantityOfAppend(cart, one, p.id);
    forall other | other != p.id
      ensures QuantityOf(cart + one, other) == QuantityOf(cart, other)
    {
      QuantityOfAppend(cart, one, other);
    }
  }

  lemma {:induction false} BumpQuantityOther(cart: Cart, id: string, other: string)
    requires other != id
    ensures QuantityOf(Bump(cart, id), other) == QuantityOf(cart, other)
  {
    if |cart| > 0 {
      BumpQuantityOther(cart[1..], id, other);
      assert Bump(cart, id)[1..] == Bump(cart[1..], id);
    }
  }

  /** Removing a product takes exactly its units out of the item count and
      leaves every other product's quantity as it was. */
  lemma {:induction false} RemoveFromCartTotals(cart: Cart, id: string)
    ensures TotalItems(RemoveFromCart(cart, id)) == TotalItems(cart) - QuantityOf(cart, id)
    ensures QuantityOf(RemoveFromCart(cart, id), id) == 0
    ensures forall other :: other != id ==> QuantityOf(RemoveFromCart(cart, id), other) == QuantityOf(cart, other)
  {
    if |cart| > 0 {
      RemoveFromCartTotals(cart[1..], id);
    }
  }

  /** In a cart without duplicates, removal is exactly the deletion of the one
      item carrying the id (the others keep their order), or nothing at all. */
  lemma RemoveFromCartIsDeletion(cart: Cart, id: string)
    requires Valid(cart)
    ensures id !in Ids(cart) ==> RemoveFromCart(cart, id) == cart
    ensures forall i :: 0 <= i < |cart| && cart[i].product.id == id ==> RemoveFromCart(cart, id) == RemoveAt(cart, i)
  {
    if id !in Ids(cart) {
      RemoveAbsent(cart, id);
    }
    forall i | 0 <= i < |cart| && cart[i].product.id == id
      ensures RemoveFromCart(cart, id) == RemoveAt(cart, i)
    {
      OnlyAtOfValid(cart, i);
      RemoveOneAt(cart, id, i);
    }
  }

  /** Removal keeps a cart valid. */
  lemma {:induction false} RemoveFromCartValid(cart: Cart, id: string)
    requires Valid(cart)
    ensures Valid(RemoveFromCart(cart, id))
  {
    if |cart| > 0 {
      var tail := cart[1..];
      assert forall k :: 0 <= k < |tail| ==> tail[k] == cart[k + 1];
      RemoveFromCartValid(tail, id);
      var rest := RemoveFromCart(tail, id);
      if cart[0].product.id != id {
        forall k | 0 <= k < |rest|
          ensures rest[k].product.id != cart[0].product.id
        {
          assert rest[k] in tail;
          var m :| 0 <= m < |tail| && tail[m] == rest[k];
          assert tail[m] == cart[m + 1];
        }
        ValidCons(cart[0], rest);
      }
    }
  }

  /** An item in front of a valid cart without its id gives a valid cart. */
  lemma ValidCons(c: CartItem, rest: Cart)
    requires Valid(rest) && c.quantity >= 1
    requires forall k :: 0 <= k < |rest| ==> rest[k].product.id != c.product.id
    ensures Valid([c] + rest)
  {
    var r := [c] + rest;
    forall i, j | 0 <= i < j < |r|
      ensures r[i].product.id != r[j].product.id
    {
      assert r[j] == rest[j - 1];
      if i > 0 {
        assert r[i] == rest[i - 1];
      }
    }
  }

  lemma {:induction false} RemoveAbsent(cart: Cart, id: string)
    requires id !in Ids(cart)
    ensures RemoveFromCart(cart, id) == cart
  {
    if |cart| > 0 {
      IdsTail(cart);
      RemoveAbsent(cart[1..], id);
    }
  }

  lemma {:induction false} RemoveOneAt(cart: Cart, id: string, i: nat)
    requires OnlyAt(cart, id, i)
    ensures RemoveFromCart(cart, id) == RemoveAt(cart, i)
  {
    var rest := cart[1..];
    OnlyAtTail(cart, id, i);
    if i == 0 {
      RemoveAbsent(rest, id);
    } else {
      assert rest[i - 1] == cart[i];
      RemoveOneAt(rest, id, i - 1);
      assert RemoveAt(cart, i) == [cart[0]] + RemoveAt(rest, i - 1);
    }
  }

  /** Setting the quantity of a product in the cart to `q >= 1` replaces its
      units by `q` in the item count; a product not in the cart changes nothing. */
  lemma UpdateQuantityTotals(cart: Cart, id: string, q: int)
    requires Valid(cart) && q >= 1
    ensures id !in Ids(cart) ==> UpdateQuantity(cart, id, q) == cart
    ensures id in Ids(cart) ==> TotalItems(UpdateQuantity(cart, id, q)) == TotalItems(cart) - QuantityOf(cart, id) + q
    ensures QuantityOf(UpdateQuantity(cart, id, q), id) == if id in Ids(cart) then q else 0
  {
    var r := UpdateQuantity(cart, id, q);
    assert r == SetQuantity(cart, id, q);
    QuantityOfValid(cart, id);
    if id in Ids(cart) {
      var i :| 0 <= i < |cart| && Ids(cart)[i] == id;
      OnlyAtOfValid(cart, i);
      SetQuantityAt(cart, id, q, i);
      QuantityOfValid(r, id);
      assert r[i].product.id == id && r[i].quantity == q;
    } else {
      SetQuantityAbsent(cart, id, q);
    }
  }

  /** The price total splits around any one line. */
  lemma TotalPriceSplit(cart: Cart, i: nat)
    requires i < |cart|
    ensures TotalPrice(cart) == TotalPrice(cart[..i]) + LineTotal(cart[i]) + TotalPrice(cart[i + 1..])
  {
    var tail := [cart[i]] + cart[i + 1..];
    assert cart == cart[..i] + tail;
    TotalPriceAppend(cart[..i], tail);
    assert tail[1..] == cart[i + 1..];
  }

  /** Removing a product takes exactly its line total off the price total. */
  lemma RemoveFromCartPrice(cart: Cart, i: nat)
    requires Valid(cart) && i < |cart|
    ensures TotalPrice(RemoveFromCart(cart, cart[i].product.id)) == TotalPrice(cart) - LineTotal(cart[i])
  {
    RemoveFromCartIsDeletion(cart, cart[i].product.id);
    assert RemoveAt(cart, i) == cart[..i] + cart[i + 1..];
    TotalPriceAppend(cart[..i], cart[i + 1..]);
    TotalPriceSplit(cart, i);
  }

  /** Replacing one line changes the price total by the difference of the two line totals. */
  lemma TotalPriceReplace(cart: Cart, i: nat, item: CartItem)
    requires i < |cart|
    ensures TotalPrice(cart[i := item]) == TotalPrice(cart) - LineTotal(cart[i]) + LineTotal(item)
  {
    var r := cart[i := item];
    TotalPriceSplit(cart, i);
    TotalPriceSplit(r, i);
    assert r[..i] == cart[..i];
    assert r[i + 1..] == cart[i + 1..];
  }

  /** In a valid cart, updating a held product rewrites exactly its one line. */
  lemma UpdateQuantityAt(cart: Cart, i: nat, q: int)
    requires Valid(cart) && i < |cart| && q >= 1
    ensures UpdateQuantity(cart, cart[i].product.id, q) == cart[i := cart[i].(quantity := q)]
  {
    var id := cart[i].product.id;
    var r := UpdateQuantity(cart, id, q);
    var u := cart[i := cart[i].(quantity := q)];
    OnlyAtOfValid(cart, i);
    forall k | 0 <= k < |cart|
      ensures r[k] == u[k]
    {
      if k != i {
        assert cart[k].product.id != id;
      }
    }
  }

  /** Setting a held product's quantity to `q >= 1` replaces its line total by
      that of `q` units at the same effective price. */
  lemma UpdateQuantityPrice(cart: Cart, i: nat, q: int)
    requires Valid(cart) && i < |cart| && q >= 1
    ensures TotalPrice(UpdateQuantity(cart, cart[i].product.id, q))
            == TotalPrice(cart) - LineTotal(cart[i]) + LineTotal(cart[i].(quantity := q))
  {
    UpdateQuantityAt(cart, i, q);
    TotalPriceReplace(cart, i, cart[i].(quantity := q));
  }
}

=== FILE: catalog.dfy ===
/** The product routes (backend/server/index.js:414-481): public listing and
    lookup, and the admin-only create, update and delete. */
module Catalog {
  import opened Common
  import opened Domain
  import opened Validation
  import opened Auth

  /** The fields of a create request. A field that is absent, or (for the
      text fields) empty, falls back to its default. */
  datatype ProductInput = ProductInput(
    name: Option<string>,
    price: Option<real>,
    discountPercent: NumInput,
    image: Option<string>,
    scent: Option<string>,
    category: Option<string>,
    isNew: Option<bool>)

  /** The fields of an update request; each present field replaces the stored
      one verbatim, `id` included. */
  datatype ProductPatch = ProductPatch(
    id: Option<string>,
    name: Option<string>,
    price: Option<real>,
    discountPercent: Option<NumInput>,
    image: Option<string>,
    scent: Option<string>,
    category: Option<string>,
    isNew: Option<bool>)

  /** `String(x || fallback)` on a text field. */
  function TextOr(x: Option<string>, fallback: string): (r: string)
    ensures x.Some? && x.value != "" ==> r == x.value
    ensures x.None? || x.value == "" ==> r == fallback
  {
    if x.Some? && x.value != "" then x.value else fallback
  }

  /** `products.findIndex(p => p.id === id)`. */
  function FindProduct(products: seq<Product>, id: string): (r: Option<nat>)
    ensures r.Some? ==> r.value < |products| && products[r.value].id == id
    ensures r.Some? ==> forall j :: 0 <= j < r.value ==> products[j].id != id
    ensures r.None? <==> forall j :: 0 <= j < |products| ==> products[j].id != id
  {
    FirstIndex(products, (p: Product) => p.id == id)
  }

  /** GET /products. */
  function ListProducts(s: State): (r: Response)
    ensures r.status == 200 && r.body.ProductList? && r.body.products == s.products
  {
    Response(200, ProductList(s.products))
  }

  /** GET /products/:id: the first product with that id, or 404 when none has it. */
  function GetProduct(s: State, id: string): (r: Response)
    ensures r.status == 404 <==> forall j :: 0 <= j < |s.products| ==> s.products[j].id != id
    ensures r.status == 404 ==> r.body == Message("Product not found")
    ensures r.status != 404 ==> r.status == 200 && r.body.OneProduct? && r.body.product in s.products && r.body.product.id == id
    ensures r.status == 200 ==>
      exists k :: 0 <= k < |s.products| && r.body.product == s.products[k] &&
        forall j :: 0 <= j < k ==> s.products[j].id != id
  {
    match FindProduct(s.products, id)
    case None => Response(404, Message("Product not found"))
    case Some(i) => Response(200, OneProduct(s.products[i]))
  }

  /** The product a create request builds: defaults for missing fields and
      the discount normalised. */
  function NewProduct(input: ProductInput, id: string): (p: Product)
    ensures p.id == id
    ensures 0.0 <= p.discountPercent <= 90.0 && p.discountPercent == NormalizeDiscount(input.discountPercent)
    ensures p.name == TextOr(input.name, "Unnamed Product") && p.name != ""
    ensures p.category == TextOr(input.category, "General") && p.category != ""
    ensures input.price.Some? ==> p.price == input.price.value
    ensures input.price.None? ==> p.price == 0.0
    ensures p.image == TextOr(input.image, "") && p.scent == TextOr(input.scent, "")
    ensures input.isNew.Some? ==> p.isNew == input.isNew.value
    ensures input.isNew.None? ==> !p.isNew
  {
    Product(
      id,
      TextOr(input.name, "Unnamed Product"),
      if input.price.Some? then input.price.value else 0.0,
      NormalizeDiscount(input.discountPercent),
      TextOr(input.image, ""),
      TextOr(input.scent, ""),
      TextOr(input.category, "General"),
      input.isNew.Some? && input.isNew.value)
  }

  /** POST /products: for an admin, the new product (with id `id`) is put in
      front of the catalog and returned with 201; anyone else is refused by
      the admin gate and nothing changes. */
  function CreateProduct(s: State, header: string, input: ProductInput, id: string): (r: Step)
    ensures RequireAdmin(s, header).Denied? ==> r == Step(RequireAdmin(s, header).response, s)
    ensures RequireAdmin(s, header).Allowed? ==>
      && r.response == Response(201, OneProduct(NewProduct(input, id)))
      && r.state == s.(products := [NewProduct(input, id)] + s.products)
  {
    match RequireAdmin(s, header)
    case Denied(resp) => Step(resp, s)
    case Allowed(_) =>
      var p := NewProduct(input, id);
      Step(Response(201, OneProduct(p)), s.(products := [p] + s.products))
  }

  /** `{ ...product, ...body }`, then the discount re-normalised when the body
      carries one. */
  function Merge(p: Product, patch: ProductPatch): (r: Product)
    ensures patch.discountPercent.Some? ==> r.discountPercent == NormalizeDiscount(patch.discountPercent.value)
    ensures patch.discountPercent.None? ==> r.discountPercent == p.discountPercent
    ensures patch.id.Some? ==> r.id == patch.id.value
    ensures patch.id.None? ==> r.id == p.id
    ensures patch.name.Some? ==> r.name == patch.name.value
    ensures patch.name.None? ==> r.name == p.name
    ensures patch.price.Some? ==> r.price == patch.price.value
    ensures patch.price.None? ==> r.price == p.price
    ensures patch.image.Some? ==> r.image == patch.image.value
    ensures patch.image.None? ==> r.image == p.image
    ensures patch.scent.Some? ==> r.scent == patch.scent.value
    ensures patch.scent.None? ==> r.scent == p.scent
    ensures patch.category.Some? ==> r.category == patch.category.value
    ensures patch.category.None? ==> r.category == p.category
    ensures patch.isNew.Some? ==> r.isNew == patch.isNew.value
    ensures patch.isNew.None? ==> r.isNew == p.isNew
    ensures patch == ProductPatch(None, None, None, None, None, None, None, None) ==> r == p
  {
    Product(
      if patch.id.Some? then patch.id.value else p.id,
      if patch.name.Some? then patch.name.value else p.name,
      if patch.price.Some? then patch.price.value else p.price,
      if patch.discountPercent.Some? then NormalizeDiscount(patch.discountPercent.value) else p.discountPercent,
      if patch.image.Some? then patch.image.value else p.image,
      if patch.scent.Some? then patch.scent.value else p.scent,
      if patch.category.Some? then patch.category.value else p.category,
      if patch.isNew.Some? then patch.isNew.value else p.isNew)
  }

  /** PUT /products/:id: behind the admin gate, an absent id gets 404 and
      nothing changes; otherwise the first product with that id, and only it,
      is replaced by its merge with the patch, in place. */
  function UpdateProduct(s: State, header: string, id: string, patch: ProductPatch): (r: Step)
    ensures RequireAdmin(s, header).Denied? ==> r == Step(RequireAdmin(s, header).response, s)
    ensures RequireAdmin(s, header).Allowed? && FindProduct(s.products, id).None? ==>
      r == Step(Response(404, Message("Product not found")), s)
    ensures RequireAdmin(s, header).Allowed? && FindProduct(s.products, id).Some? ==>
      var i := FindProduct(s.products, id).value;
      && r.response == Response(200, OneProduct(Merge(s.products[i], patch)))
      && |r.state.products| == |s.products|
      && r.state.products[i] == Merge(s.products[i], patch)
      && (forall j :: 0 <= j < |s.products| && j != i ==> r.state.products[j] == s.products[j])
      && r.state == s.(products := s.products[i := Merge(s.products[i], patch)])
  {
    match RequireAdmin(s, header)
    case Denied(resp) => Step(resp, s)
    case Allowed(_) =>
      match FindProduct(s.products, id)
      case None => Step(Response(404, Message("Product not found")), s)
      case Some(i) =>
        var next := Merge(s.products[i], patch);
        Step(Response(200, OneProduct(next)), s.(products := s.products[i := next]))
  }

  /** DELETE /products/:id: behind the admin gate, an absent id gets 404 and
      nothing changes; otherwise exactly the first product with that id is
      removed (the rest keep their order) and returned. */
  function DeleteProduct(s: State, header: string, id: string): (r: Step)
    ensures RequireAdmin(s, header).Denied? ==> r == Step(RequireAdmin(s, header).response, s)
    ensures RequireAdmin(s, header).Allowed? && FindProduct(s.products, id).None? ==>
      r == Step(Response(404, Message("Product not found")), s)
    ensures RequireAdmin(s, header).Allowed? && FindProduct(s.products, id).Some? ==>
      var i := FindProduct(s.products, id).value;
      && r.response == Response(200, OneProduct(s.products[i]))
      && r.state == s.(products := RemoveAt(s.products, i))
      && multiset(r.state.products) + multiset{s.products[i]} == multiset(s.products)
  {
    match RequireAdmin(s, header)
    case Denied(resp) => Step(resp, s)
    case Allowed(_) =>
      match FindProduct(s.products, id)
      case None => Step(Response(404, Message("Product not found")), s)
      case Some(i) =>
        RemoveAtMultiset(s.products, i);
        Step(Response(200, OneProduct(s.products[i])), s.(products := RemoveAt(s.products, i)))
  }

  /** Creating a product keeps the store consistent: the new discount is normalised. */
  lemma CreateProductPreservesValid(s: State, header: string, input: ProductInput, id: string)
    requires Valid(s)
    ensures Valid(CreateProduct(s, header, input, id).state)
  {
    if RequireAdmin(s, header).Allowed? {
      var ps := [NewProduct(input, id)] + s.products;
      forall i | 0 <= i < |ps|
        ensures 0.0 <= ps[i].discountPercent <= 90.0
      {
        if i > 0 {
          assert ps[i] == s.products[i - 1];
        }
      }
      ValidWithProducts(s, ps);
    }
  }

  /** Updating a product keeps the store consistent: a changed discount is
      normalised again. */
  lemma UpdateProductPreservesValid(s: State, header: string, id: string, patch: ProductPatch)
    requires Valid(s)
    ensures Valid(UpdateProduct(s, header, id, patch).state)
  {
    if RequireAdmin(s, header).Allowed? && FindProduct(s.products, id).Some? {
      var i := FindProduct(s.products, id).value;
      var m := Merge(s.products[i], patch);
      assert 0.0 <= m.discountPercent <= 90.0;
      var ps := s.products[i := m];
      assert forall j :: 0 <= j < |ps| && j != i ==> ps[j] == s.products[j];
      ValidWithProducts(s, ps);
    }
  }

  /** Deleting a product keeps the store consistent. */
  lemma DeleteProductPreservesValid(s: State, header: string, id: string)
    requires Valid(s)
    ensures Valid(DeleteProduct(s, header, id).state)
  {
    if RequireAdmin(s, header).Allowed? && FindProduct(s.products, id).Some? {
      var i := FindProduct(s.products, id).value;
      var ps := RemoveAt(s.products, i);
      forall j | 0 <= j < |ps|
        ensures 0.0 <= ps[j].discountPercent <= 90.0
      {
        if j < i {
          assert ps[j] == s.products[j];
        } else {
          assert ps[j] == s.products[j + 1];
        }
      }
      ValidWithProducts(s, ps);
    }
  }

  /** An update that changes a discount stores the clamp of the sent value:
      150 is stored as 90 and -5 as 0. */
  lemma UpdateClampsDiscount(s: State, header: string, id: string)
    requires RequireAdmin(s, header).Allowed? && FindProduct(s.products, id).Some?
    ensures var patch := ProductPatch(None, None, None, Some(Finite(150.0)), None, None, None, None);
      UpdateProduct(s, header, id, patch).state.products[FindProduct(s.products, id).value].discountPercent == 90.0
    ensures var patch := ProductPatch(None, None, None, Some(Finite(-5.0)), None, None, None, None);
      UpdateProduct(s, header, id, patch).state.products[FindProduct(s.products, id).value].discountPercent == 0.0
  {
  }
}

=== FILE: checkout.dfy ===
/** How the cart page turns the cart into the items of an order request
    (frontend/src/app/pages/Cart.tsx:40-47), and why the total the backend
    computes for them is the total the cart showed. */
module Checkout {
  import Common
  import Cart
  import Pricing
  import opened Domain
  import opened Orders

  /** `cart.map(item => ({ id, name, price: getDiscountedPrice(price, discountPercent), quantity }))`. */
  function CheckoutItems(cart: Cart.Cart): (r: seq<OrderItem>)
    ensures |r| == |cart|
    ensures forall i :: 0 <= i < |cart| ==>
      && r[i].id == cart[i].product.id
      && r[i].quantity == cart[i].quantity as real
      && r[i].name == cart[i].product.name
      && r[i].price == Pricing.GetDiscountedPrice(cart[i].product.price, cart[i].product.discountPercent)
      && r[i].price >= 0.0
  {
    if |cart| == 0 then []
    else
      var item := cart[0];
      var p := item.product;
      [OrderItem(p.id, p.name, Pricing.GetDiscountedPrice(p.price, p.discountPercent), item.quantity as real)]
        + CheckoutItems(cart[1..])
  }

  /** For a cart without negative prices, the order total the server computes
      from the submitted items equals the cart's `totalPrice` (before the
      rounding of each unit price to two decimals, which is not modelled). */
  lemma {:induction false} CheckoutTotalMatchesCart(cart: Cart.Cart)
    requires forall i :: 0 <= i < |cart| ==> cart[i].product.price >= 0.0
    ensures OrderTotal(CheckoutItems(cart)) == Cart.TotalPrice(cart)
  {
    if |cart| > 0 {
      CheckoutTotalMatchesCart(cart[1..]);
      assert CheckoutItems(cart)[1..] == CheckoutItems(cart[1..]);
    }
  }

  /** Without the non-negative-price condition the two totals part: a product
      can be stored with a negative price (backend/server/index.js:438), the
      cart's `getEffectivePrice` keeps it negative, and `getDiscountedPrice`
      clamps the submitted unit price to 0. One unit at -100 shows a cart total
      of -100 and is ordered at a total of 0. */
  lemma NegativePriceTotalsDiffer()
    ensures var cart := [Cart.CartItem(Cart.Product("p", "Oud", -100.0, Common.None, "", ""), 1)];
      && Cart.TotalPrice(cart) == -100.0
      && OrderTotal(CheckoutItems(cart)) == 0.0
  {
    var cart := [Cart.CartItem(Cart.Product("p", "Oud", -100.0, Common.None, "", ""), 1)];
    assert cart[1..] == [];
    assert Cart.LineTotal(cart[0]) == -100.0;
    assert CheckoutItems(cart)[0].price == 0.0;
  }
}

=== FILE: common.dfy ===
/** Small building blocks shared by the backend and the storefront models:
    an Option type, the numeric clamp both sides use for discounts, and the
    "first element satisfying a predicate" search behind JavaScript's
    `Array.prototype.find` / `findIndex`. */
module Common {

  datatype Option<+T> = None | Some(value: T)

  /** `Math.min(hi, Math.max(lo, x))`. */
  function Clamp(x: real, lo: real, hi: real): (r: real)
    requires lo <= hi
    ensures lo <= r <= hi
    ensures lo <= x <= hi ==> r == x
    ensures x < lo ==> r == lo
    ensures hi < x ==> r == hi
  {
    if x < lo then lo else if hi < x then hi else x
  }

  /** The index of the first element of `s` that satisfies `p`, as
      `findIndex` computes it (None stands for -1). `find` is this index
      followed by a lookup. */
  function FirstIndex<T>(s: seq<T>, p: T -> bool): (r: Option<nat>)
    ensures r.Some? ==> r.value < |s| && p(s[r.value])
    ensures r.Some? ==> forall j :: 0 <= j < r.value ==> !p(s[j])
    ensures r.None? <==> forall j :: 0 <= j < |s| ==> !p(s[j])
  {
    if |s| == 0 then None
    else if p(s[0]) then Some(0)
    else match FirstIndex(s[1..], p)
      case None => None
      case Some(k) => Some(k + 1)
  }

  /** Removing the element at index `i` (`splice(i, 1)`). */
  function RemoveAt<T>(s: seq<T>, i: nat): (r: seq<T>)
    requires i < |s|
    ensures |r| == |s| - 1
    ensures forall j :: 0 <= j < i ==> r[j] == s[j]
    ensures forall j :: i <= j < |r| ==> r[j] == s[j + 1]
  {
    s[..i] + s[i + 1..]
  }

  /** Removing one position takes exactly that element out of the multiset. */
  lemma RemoveAtMultiset<T>(s: seq<T>, i: nat)
    requires i < |s|
    ensures multiset(RemoveAt(s, i)) + multiset{s[i]} == multiset(s)
  {
    assert s == s[..i] + [s[i]] + s[i + 1..];
  }

  /** `a` occurs in `b` in order, not necessarily contiguously. */
  predicate SubsequenceOf<T(==)>(a: seq<T>, b: seq<T>) {
    if |a| == 0 then true
    else if |b| == 0 then false
    else if a[0] == b[0] then SubsequenceOf(a[1..], b[1..])
    else SubsequenceOf(a, b[1..])
  }
}

=== FILE: domain.dfy ===
/** The backend's records and in-memory state (backend/server/index.js):
    users, products, orders, the session map and the magic-link map, the
    responses handlers send, and the invariant every handler keeps. */
module Domain {
  import opened Common
  import Strings

  datatype Role = Admin | Customer

  /** A stored user; magic-link accounts are created with an empty password. */
  datatype User = User(id: string, name: string, email: string, password: string, role: Role)

  /** The projection of a user that responses carry (no password). */
  datatype PublicUser = PublicUser(id: string, name: string, email: string, role: Role)

  function Public(u: User): PublicUser {
    PublicUser(u.id, u.name, u.email, u.role)
  }

  datatype Product = Product(
    id: string,
    name: string,
    price: real,
    discountPercent: real,
    image: string,
    scent: string,
    category: string,
    isNew: bool)

  /** A pending magic link: whose it is and when (milliseconds) it stops working. */
  datatype MagicEntry = MagicEntry(userId: string, expiresAt: int)

  /** The `shippingAddress` of an order request: anything that is not a JSON
      object, or an object whose fields are given as the text `String(v || "")`
      makes of them (a missing field reads as ""). */
  datatype AddressInput = NotAnObject | Fields(fields: map<string, string>)

  datatype OrderItem = OrderItem(id: string, name: string, price: real, quantity: real)

  /** What the seller notification reported: `{sent, provider, id}`. */
  datatype Dispatch = Dispatch(sent: bool, provider: string, providerId: Option<string>)

  datatype Order = Order(
    id: string,
    userId: string,
    buyerEmail: string,
    items: seq<OrderItem>,
    total: real,
    status: string,
    createdAt: int,
    shippingAddress: AddressInput,
    emailDispatch: Option<Dispatch>)

  /** The module-level arrays and maps that serve as the database. */
  datatype State = State(
    users: seq<User>,
    products: seq<Product>,
    orders: seq<Order>,
    sessions: map<string, string>,
    magicLinks: map<string, MagicEntry>)

  /** The JSON bodies handlers send. */
  datatype Body =
    | Message(text: string)
    | ServerError(message: string, error: string)
    | HealthBody(ok: bool, timestamp: int)
    | Session(token: string, user: PublicUser)
    | MagicLink(message: string, link: string, token: string, user: PublicUser)
    | Profile(user: PublicUser)
    | OneProduct(product: Product)
    | ProductList(products: seq<Product>)
    | OneOrder(order: Order)
    | OrderList(orders: seq<Order>)

  datatype Response = Response(status: int, body: Body)

  /** What a handler produces: the response and the state after it. */
  datatype Step = Step(response: Response, state: State)

  function UserIds(users: seq<User>): set<string> {
    set u | u in users :: u.id
  }

  function OrderIds(orders: seq<Order>): set<string> {
    set o | o in orders :: o.id
  }

  /** The facts about the store that every handler preserves: user ids are
      unique and non-empty, emails are unique up to case, every session,
      pending magic link and order belongs to an existing user, every stored
      discount lies in [0, 90], and order ids are unique with a non-empty status. */
  predicate Valid(s: State) {
    && (forall i, j :: 0 <= i < j < |s.users| ==> s.users[i].id != s.users[j].id)
    && (forall i, j :: 0 <= i < j < |s.users| ==> Strings.Lower(s.users[i].email) != Strings.Lower(s.users[j].email))
    && (forall i :: 0 <= i < |s.users| ==> s.users[i].id != "")
    && (forall t :: t in s.sessions ==> s.sessions[t] in UserIds(s.users))
    && (forall t :: t in s.magicLinks ==> s.magicLinks[t].userId in UserIds(s.users))
    && (forall i :: 0 <= i < |s.products| ==> 0.0 <= s.products[i].discountPercent <= 90.0)
    && (forall i, j :: 0 <= i < j < |s.orders| ==> s.orders[i].id != s.orders[j].id)
    && (forall i :: 0 <= i < |s.orders| ==> s.orders[i].userId in UserIds(s.users) && s.orders[i].status != "")
  }

  /** A session for an existing user keeps the store consistent. */
  lemma ValidWithSession(s: State, token: string, userId: string)
    requires Valid(s) && userId in UserIds(s.users)
    ensures Valid(s.(sessions := s.sessions[token := userId]))
  {
  }

  /** A pending link for an existing user keeps the store consistent. */
  lemma ValidWithMagicLink(s: State, token: string, entry: MagicEntry)
    requires Valid(s) && entry.userId in UserIds(s.users)
    ensures Valid(s.(magicLinks := s.magicLinks[token := entry]))
  {
  }

  /** Dropping a pending link keeps the store consistent. */
  lemma ValidWithoutMagicLink(s: State, token: string)
    requires Valid(s)
    ensures Valid(s.(magicLinks := s.magicLinks - {token}))
  {
  }

  /** Any catalog whose discounts all lie in [0, 90] keeps the store consistent. */
  lemma ValidWithProducts(s: State, products: seq<Product>)
    requires Valid(s)
    requires forall i :: 0 <= i < |products| ==> 0.0 <= products[i].discountPercent <= 90.0
    ensures Valid(s.(products := products))
  {
  }

  /** Appending a user with a fresh non-empty id and an email no one has
      (ignoring case) keeps the store consistent. */
  lemma ValidWithUser(s: State, u: User)
    requires Valid(s) && u.id != "" && u.id !in UserIds(s.users)
    requires forall i :: 0 <= i < |s.users| ==> Strings.Lower(s.users[i].email) != Strings.Lower(u.email)
    ensures UserIds(s.users + [u]) == UserIds(s.users) + {u.id}
    ensures Valid(s.(users := s.users + [u]))
  {
    var us := s.users + [u];
    assert forall v :: v in us <==> v in s.users || v == u;
    forall i, j | 0 <= i < j < |us|
      ensures us[i].id != us[j].id && Strings.Lower(us[i].email) != Strings.Lower(us[j].email)
    {
      assert us[i] == s.users[i];
      if j == |s.users| {
        assert us[i] in s.users;
      } else {
        assert us[j] == s.users[j];
      }
    }
  }

  function SeedProduct(id: string, name: string, price: real, image: string, scent: string, category: string): Product {
    Product(id, name, price, 0.0, image, scent, category, true)
  }

  /** The two accounts the server starts with. */
  const SeedAdmin: User := User("u_admin", "Admin User", "abdurrafayfarhan3@gmail.com", "admin123", Admin)
  const SeedCustomer: User := User("u_customer", "Luxury Customer", "user@arluxe.com", "user123", Customer)
  const SeedUsers: seq<User> := [SeedAdmin, SeedCustomer]

  /** The state the server starts with: two accounts and ten products, no
      orders, sessions or magic links. */
  const Seed: State := State(SeedUsers, SeedProducts, [], map[], map[])

  /** The ten products the catalog starts with, none discounted. */
  const SeedProducts: seq<Product> :=
    [ SeedProduct("reef-33", "REEF 33", 3500.0, "/reef-33-3-2.png", "Warm, Spicy, Amber", "Premium Category"),
      SeedProduct("elysium-3", "ELYSIUM", 3500.0, "/elysium-3.png", "Fresh, Citrus, Woody", "Premium Category"),
      SeedProduct("aventus-creed-4", "AVENTUS CREED", 4000.0, "/aventus-creed-4.png", "Fruity, Smoky, Woody", "Premium Category"),
      SeedProduct("oud-maracuja-2-1", "OUD MARACUJA", 4000.0, "/oud-maracuja-2-1.png", "Tropical, Oud, Amber", "Premium Category"),
      SeedProduct("blue-oud5-1", "BLUE OUD", 4000.0, "/blue-oud5-1.png", "Fresh, Oud, Marine", "Premium Category"),
      SeedProduct("officer-1", "OFFICER", 1500.0, "/officer-1.png", "Fresh, Aromatic, Elegant", "New Category"),
      SeedProduct("urban-eclipse-1", "URBAN ECLIPSE", 1500.0, "/urban-eclipse-1.png", "Woody, Dark, Modern", "New Category"),
      SeedProduct("miranee-1", "MIRANEE", 1500.0, "/miranee-1.png", "Soft, Musky, Floral", "New Category"),
      SeedProduct("braven-1-1", "BRAVEN", 1500.0, "/braven-1-1.png", "Bold, Woody, Spicy", "New Category"),
      SeedProduct("evelle-4", "EVELLE", 1500.0, "/evelle-4.jpg.jpeg", "Elegant, Floral, Smooth", "New Category") ]

  /** The seeded emails differ even ignoring case. */
  lemma SeedEmailsDiffer()
    ensures Strings.Lower(SeedAdmin.email) != Strings.Lower(SeedCustomer.email)
  {
    assert Strings.Lower(SeedAdmin.email)[0] == 'a';
    assert Strings.Lower(SeedCustomer.email)[0] == 'u';
  }

  /** The server starts in a state that satisfies the invariant. */
  lemma SeedValid()
    ensures Valid(Seed)
  {
    SeedEmailsDiffer();
    SeedDiscountsZero();
    assert Seed.users == SeedUsers && Seed.products == SeedProducts;
  }

  lemma SeedDiscountsZero()
    ensures forall i :: 0 <= i < |SeedProducts| ==> SeedProducts[i].discountPercent == 0.0
  {
    var ps := SeedProducts;
    forall i | 0 <= i < |ps|
      ensures ps[i].discountPercent == 0.0
    {
      assert ps[i] in ps;
    }
  }
}

=== FILE: orders.dfy ===
/** The order routes (backend/server/index.js:483-531): scoped listing,
    checkout and the admin status change. The seller notification is an
    opaque step whose outcome is a parameter. */
module Orders {
  import opened Common
  import opened Domain
  import opened Validation
  import opened Auth

  /** The order status checkout assigns. */
  const Pending: string := "pending"

  /** What the seller notification did: reported delivery (with the
      provider's message id, if it gave one), or failed with this error text. */
  datatype NotifyOutcome = Delivered(providerId: Option<string>) | NotifyFailed(error: string)

  /** `items.reduce((sum, item) => sum + price * quantity, 0)`. */
  function OrderTotal(items: seq<OrderItem>): real {
    if |items| == 0 then 0.0 else items[0].price * items[0].quantity + OrderTotal(items[1..])
  }

  lemma {:induction false} OrderTotalAppend(a: seq<OrderItem>, b: seq<OrderItem>)
    ensures OrderTotal(a + b) == OrderTotal(a) + OrderTotal(b)
  {
    if |a| > 0 {
      assert (a + b)[1..] == a[1..] + b;
      OrderTotalAppend(a[1..], b);
    } else {
      assert a + b == b;
    }
  }

  /** With no negative price or quantity, an order's total is not negative. */
  lemma {:induction false} OrderTotalNonNegative(items: seq<OrderItem>)
    requires forall i :: 0 <= i < |items| ==> items[i].price >= 0.0 && items[i].quantity >= 0.0
    ensures OrderTotal(items) >= 0.0
  {
    if |items| > 0 {
      OrderTotalNonNegative(items[1..]);
      assert items[0].price * items[0].quantity >= 0.0;
    }
  }

  /** `user.role === "admin" ? orders : orders.filter(o => o.userId === user.id)`. */
  function VisibleOrders(orders: seq<Order>, u: User): (r: seq<Order>)
    ensures u.role == Admin ==> r == orders
    ensures u.role != Admin ==> forall o :: o in r <==> o in orders && o.userId == u.id
    ensures u.role != Admin ==> SubsequenceOf(r, orders)
    ensures u.role != Admin ==> forall o :: multiset(r)[o] == if o.userId == u.id then multiset(orders)[o] else 0
    ensures |r| <= |orders|
  {
    if u.role == Admin then orders else OwnedBy(orders, u.id)
  }

  /** The orders of one user, in store order. */
  function OwnedBy(orders: seq<Order>, userId: string): (r: seq<Order>)
    ensures forall o :: o in r <==> o in orders && o.userId == userId
    ensures SubsequenceOf(r, orders)
    ensures forall o :: multiset(r)[o] == if o.userId == userId then multiset(orders)[o] else 0
    ensures |r| <= |orders|
  {
    if |orders| == 0 then []
    else
      var rest := OwnedBy(orders[1..], userId);
      assert orders == [orders[0]] + orders[1..];
      if orders[0].userId == userId then [orders[0]] + rest else rest
  }

  /** GET /orders: 401 for an unknown caller; an admin sees every order, a
      customer exactly their own. The store is never changed. */
  function ListOrders(s: State, header: string): (r: Response)
    ensures ResolveBearer(s, header).None? ==> r == Response(401, Message("Unauthorized"))
    ensures ResolveBearer(s, header).Some? ==>
      var u := ResolveBearer(s, header).value;
      r == Response(200, OrderList(VisibleOrders(s.orders, u)))
  {
    match RequireAuth(s, header)
    case Denied(resp) => resp
    case Allowed(u) => Response(200, OrderList(VisibleOrders(s.orders, u)))
  }

  /** A customer listing orders never sees one that is not theirs, and sees
      every one that is; an admin sees them all. */
  lemma ListOrdersScoped(s: State, header: string)
    requires ResolveBearer(s, header).Some?
    ensures var u := ResolveBearer(s, header).value;
      var r := ListOrders(s, header);
      && r.status == 200
      && (u.role == Admin ==> r.body.orders == s.orders)
      && (u.role == Customer ==> forall o :: o in r.body.orders <==> o in s.orders && o.userId == u.id)
  {
  }

  /** The order checkout builds before notifying the seller. */
  function NewOrder(u: User, items: seq<OrderItem>, address: AddressInput, id: string, now: int): (o: Order)
    ensures o.id == id && o.userId == u.id && o.buyerEmail == u.email
    ensures o.items == items && o.shippingAddress == address && o.createdAt == now
    ensures o.status == Pending && o.emailDispatch.None?
    ensures o.total == OrderTotal(items)
  {
    Order(id, u.id, u.email, items, OrderTotal(items), Pending, now, address, None)
  }

  /** POST /orders. An unknown caller gets 401 and an invalid shipping address
      400, with nothing stored. Otherwise the new pending order is put in front
      of the order list before the seller is notified. When the notification
      succeeds the stored and returned order record its dispatch and the reply
      is 201; when it fails the reply is 500 but the order stays stored. */
  function CreateOrder(s: State, header: string, items: seq<OrderItem>, address: AddressInput,
                       id: string, now: int, notify: NotifyOutcome): (r: Step)
    ensures ResolveBearer(s, header).None? ==> r == Step(Response(401, Message("Unauthorized")), s)
    ensures ResolveBearer(s, header).Some? && !IsValidAddress(address) ==>
      r == Step(Response(400, Message("Shipping address is required before checkout")), s)
    ensures ResolveBearer(s, header).Some? && IsValidAddress(address) ==>
      var u := ResolveBearer(s, header).value;
      var placed := NewOrder(u, items, address, id, now);
      && |r.state.orders| == |s.orders| + 1
      && r.state == s.(orders := [r.state.orders[0]] + s.orders)
      && (notify.Delivered? ==>
            && r.state.orders[0] == placed.(emailDispatch := Some(Dispatch(true, "resend", notify.providerId)))
            && r.response == Response(201, OneOrder(r.state.orders[0])))
      && (notify.NotifyFailed? ==>
            && r.state.orders[0] == placed
            && r.response == Response(500, ServerError("Internal server error", notify.error)))
  {
    match RequireAuth(s, header)
    case Denied(resp) => Step(resp, s)
    case Allowed(u) =>
      if !IsValidAddress(address) then
        Step(Response(400, Message("Shipping address is required before checkout")), s)
      else
        var placed := NewOrder(u, items, address, id, now);
        match notify
        case NotifyFailed(error) =>
          Step(Response(500, ServerError("Internal server error", error)), s.(orders := [placed] + s.orders))
        case Delivered(providerId) =>
          var sent := placed.(emailDispatch := Some(Dispatch(true, "resend", providerId)));
          Step(Response(201, OneOrder(sent)), s.(orders := [sent] + s.orders))
  }

  /** `orders.find(o => o.id === id)`, as an index. */
  function FindOrder(orders: seq<Order>, id: string): (r: Option<nat>)
    ensures r.Some? ==> r.value < |orders| && orders[r.value].id == id
    ensures r.Some? ==> forall j :: 0 <= j < r.value ==> orders[j].id != id
    ensures r.None? <==> forall j :: 0 <= j < |orders| ==> orders[j].id != id
  {
    FirstIndex(orders, (o: Order) => o.id == id)
  }

  /** `String(body.status || order.status)`: an empty or missing status keeps the old one. */
  function NextStatus(current: string, requested: string): (r: string)
    ensures requested != "" ==> r == requested
    ensures requested == "" ==> r == current
  {
    if requested != "" then requested else current
  }

  /** The order list with the status of position `i` changed as the patch asks. */
  function SetStatus(orders: seq<Order>, i: nat, status: string): seq<Order>
    requires i < |orders|
  {
    orders[i := orders[i].(status := NextStatus(orders[i].status, status))]
  }

  /** PATCH /orders/:id: behind the admin gate, an absent id gets 404 and
      nothing changes; otherwise the first order with that id takes the
      requested status (any text is accepted), or keeps its own when the
      request gives none, and nothing else changes. */
  function UpdateOrderStatus(s: State, header: string, id: string, status: string): (r: Step)
    ensures RequireAdmin(s, header).Denied? ==> r == Step(RequireAdmin(s, header).response, s)
    ensures RequireAdmin(s, header).Allowed? && FindOrder(s.orders, id).None? ==>
      r == Step(Response(404, Message("Order not found")), s)
    ensures RequireAdmin(s, header).Allowed? && FindOrder(s.orders, id).Some? ==>
      var i := FindOrder(s.orders, id).value;
      && |r.state.orders| == |s.orders|
      && r.state.orders[i] == s.orders[i].(status := NextStatus(s.orders[i].status, status))
      && (forall j :: 0 <= j < |s.orders| && j != i ==> r.state.orders[j] == s.orders[j])
      && r.state == s.(orders := SetStatus(s.orders, i, status))
      && r.response == Response(200, OneOrder(r.state.orders[i]))
  {
    match RequireAdmin(s, header)
    case Denied(resp) => Step(resp, s)
    case Allowed(_) =>
      match FindOrder(s.orders, id)
      case None => Step(Response(404, Message("Order not found")), s)
      case Some(i) =>
        var os := SetStatus(s.orders, i, status);
        Step(Response(200, OneOrder(os[i])), s.(orders := os))
  }

  /** Putting in front an order with a fresh id, an existing owner and a
      status keeps the store consistent. */
  lemma PrependOrderPreservesValid(s: State, o: Order)
    requires Valid(s) && o.id !in OrderIds(s.orders) && o.userId in UserIds(s.users) && o.status != ""
    ensures Valid(s.(orders := [o] + s.orders))
  {
    var os := [o] + s.orders;
    forall i, j | 0 <= i < j < |os|
      ensures os[i].id != os[j].id
    {
      assert os[j] == s.orders[j - 1];
      if i == 0 {
        assert s.orders[j - 1] in s.orders;
      } else {
        assert os[i] == s.orders[i - 1];
      }
    }
    forall i | 0 <= i < |os|
      ensures os[i].userId in UserIds(s.users) && os[i].status != ""
    {
      if i > 0 {
        assert os[i] == s.orders[i - 1];
      }
    }
  }

  /** Checkout keeps the store consistent when the order id is fresh. */
  lemma CreateOrderPreservesValid(s: State, header: string, items: seq<OrderItem>, address: AddressInput,
                                  id: string, now: int, notify: NotifyOutcome)
    requires Valid(s) && id !in OrderIds(s.orders)
    ensures Valid(CreateOrder(s, header, items, address, id, now, notify).state)
  {
    var r := CreateOrder(s, header, items, address, id, now, notify);
    if ResolveBearer(s, header).Some? && IsValidAddress(address) {
      var u := ResolveBearer(s, header).value;
      var o := r.state.orders[0];
      assert o.id == id && o.userId == u.id && o.status == Pending;
      assert u.id in UserIds(s.users);
      PrependOrderPreservesValid(s, o);
    }
  }

  /** Changing orders in place without touching their ids or owners, and
      leaving every status non-empty, keeps the store consistent. */
  lemma RewriteOrdersPreservesValid(s: State, t: State)
    requires Valid(s) && t == s.(orders := t.orders) && |t.orders| == |s.orders|
    requires forall j :: 0 <= j < |s.orders| ==> t.orders[j].id == s.orders[j].id && t.orders[j].userId == s.orders[j].userId
    requires forall j :: 0 <= j < |t.orders| ==> t.orders[j].status != ""
    ensures Valid(t)
  {
    forall i, j | 0 <= i < j < |t.orders|
      ensures t.orders[i].id != t.orders[j].id
    {
      assert s.orders[i].id != s.orders[j].id;
    }
  }

  /** A status change leaves every order with a non-empty status. */
  lemma SetStatusKeepsStatuses(orders: seq<Order>, i: nat, status: string)
    requires i < |orders|
    requires forall j :: 0 <= j < |orders| ==> orders[j].status != ""
    ensures var os := SetStatus(orders, i, status);
      forall j :: 0 <= j < |os| ==> os[j].status != ""
  {
    var os := SetStatus(orders, i, status);
    forall j | 0 <= j < |os|
      ensures os[j].status != ""
    {
      if j != i {
        assert os[j] == orders[j];
      }
    }
  }

  /** A status change keeps the store consistent. */
  lemma UpdateOrderStatusPreservesValid(s: State, header: string, id: string, status: string)
    requires Valid(s)
    ensures Valid(UpdateOrderStatus(s, header, id, status).state)
  {
    if RequireAdmin(s, header).Allowed? && FindOrder(s.orders, id).Some? {
      var i := FindOrder(s.orders, id).value;
      SetStatusKeepsStatuses(s.orders, i, status);
      RewriteOrdersPreservesValid(s, s.(orders := SetStatus(s.orders, i, status)));
    }
  }
}

=== FILE: pricing.dfy ===
/** The storefront's price arithmetic (frontend/src/app/lib/pricing.ts).
    Prices are exact reals: the `toFixed(2)` rounding and floating point are
    not modelled, so every statement here is about the price before rounding. */
module Pricing {
  import opened Common

  /** No discount above this percentage is ever applied. */
  const MaxDiscountPercent: real := 90.0

  /** The discount actually applied, `Math.min(90, Math.max(0, Number(d || 0)))`:
      a missing discount counts as none. */
  function SafeDiscount(d: Option<real>): (r: real)
    ensures 0.0 <= r <= MaxDiscountPercent
    ensures d.None? ==> r == 0.0
    ensures d.Some? && 0.0 <= d.value <= MaxDiscountPercent ==> r == d.value
    ensures d.Some? && d.value < 0.0 ==> r == 0.0
    ensures d.Some? && d.value > MaxDiscountPercent ==> r == MaxDiscountPercent
  {
    match d
    case None => 0.0
    case Some(x) => Clamp(x, 0.0, MaxDiscountPercent)
  }

  /** `price - price * discount / 100`: the price with the safe discount taken off. */
  function Discounted(price: real, d: Option<real>): real {
    price - price * SafeDiscount(d) / 100.0
  }

  /** `getDiscountedPrice`, before its rounding to two decimals. */
  function GetDiscountedPrice(price: real, d: Option<real>): (r: real)
    ensures r >= 0.0
    ensures price >= 0.0 ==> price / 10.0 <= r <= price
    ensures price >= 0.0 && SafeDiscount(d) == 0.0 ==> r == price
    ensures price <= 0.0 ==> r == 0.0
  {
    DiscountedBounds(price, d);
    var x := Discounted(price, d);
    if x < 0.0 then 0.0 else x
  }

  /** The value `getDiscountedPrice` computes: a non-negative price loses
      exactly the safe discount's share, so a discount above 90 takes off 90
      percent and none takes off nothing; a non-positive price gives 0. */
  lemma DiscountedValue(price: real, d: Option<real>)
    ensures price >= 0.0 ==> GetDiscountedPrice(price, d) == price * (100.0 - SafeDiscount(d)) / 100.0
    ensures price >= 0.0 && d.Some? && d.value > MaxDiscountPercent ==> GetDiscountedPrice(price, d) == price / 10.0
    ensures price >= 0.0 && d.Some? && 0.0 <= d.value <= MaxDiscountPercent ==>
      GetDiscountedPrice(price, d) == price * (100.0 - d.value) / 100.0
    ensures price <= 0.0 ==> GetDiscountedPrice(price, d) == 0.0
  {
    var c := SafeDiscount(d);
    assert Discounted(price, d) == price * (100.0 - c) / 100.0;
  }

  /** Taking off at most 90 percent keeps at least a tenth of a non-negative
      price and never adds to it; on a non-positive price the result stays
      non-positive; and taking off nothing leaves the price. */
  lemma DiscountedBounds(price: real, d: Option<real>)
    ensures price >= 0.0 ==> price / 10.0 <= Discounted(price, d) <= price
    ensures price <= 0.0 ==> Discounted(price, d) <= 0.0
    ensures SafeDiscount(d) == 0.0 ==> Discounted(price, d) == price
  {
    var c := SafeDiscount(d);
    var f := 1.0 - c / 100.0;
    assert Discounted(price, d) == price * f;
    ScaleBounds(price, f);
  }

  /** Scaling by a factor between a tenth and one. */
  lemma ScaleBounds(price: real, f: real)
    requires 1.0 / 10.0 <= f <= 1.0
    ensures price >= 0.0 ==> price / 10.0 <= price * f <= price
    ensures price <= 0.0 ==> price * f <= 0.0
  {
    if price >= 0.0 {
      assert price * f - price / 10.0 == price * (f - 1.0 / 10.0);
      assert price - price * f == price * (1.0 - f);
    } else {
      assert price * f == -((-price) * f);
    }
  }

  /** `hasDiscount`: the raw discount is positive. It does not clamp, yet it
      agrees with the discount actually applied being positive. */
  function HasDiscount(d: Option<real>): (r: bool)
    ensures r <==> SafeDiscount(d) > 0.0
  {
    d.Some? && d.value > 0.0
  }

  /** Although `hasDiscount` does not clamp, it agrees with the clamped
      discount being positive, and with a positive price actually dropping.
      A discount of 150 therefore shows as a discount, and 90 is taken off
      (DiscountedValue). */
  lemma HasDiscountMeansPriceDrops(price: real, d: Option<real>)
    requires price > 0.0
    ensures HasDiscount(d) <==> SafeDiscount(d) > 0.0
    ensures HasDiscount(d) <==> GetDiscountedPrice(price, d) < price
  {
    var c := SafeDiscount(d);
    DiscountedBounds(price, d);
    if c > 0.0 {
      assert Discounted(price, d) == price - price * c / 100.0;
      assert price * c > 0.0;
    }
  }
}

=== FILE: scenarios.dfy ===
/** Sign-in on the state the server starts with (backend/server/index.js:9-24, 317-335). */
module Scenarios {
  import opened Strings
  import opened Domain
  import opened Auth

  lemma AdminEmailLower()
    ensures Lower(SeedAdmin.email) == SeedAdmin.email
  {
    LowerOfLowercase(SeedAdmin.email);
  }

  lemma AdminEmailTrimmed()
    ensures Trim(SeedAdmin.email) == SeedAdmin.email
  {
    TrimOfTrimmed(SeedAdmin.email);
  }

  /** A text that trimming and lower-casing both leave alone is its own
      normalised email. */
  lemma NormalizedFixed(e: string)
    requires Trim(e) == e && Lower(e) == e
    ensures NormalizeEmail(e) == e
  {
  }

  /** The seeded admin email is already trimmed and lower-case, and no other
      seeded account has it. */
  lemma AdminEmailNormal()
    ensures NormalizeEmail(SeedAdmin.email) == SeedAdmin.email
    ensures Lower(SeedAdmin.email) == SeedAdmin.email
    ensures Lower(SeedCustomer.email) != SeedAdmin.email
  {
    AdminEmailLower();
    AdminEmailTrimmed();
    NormalizedFixed(SeedAdmin.email);
    SeedEmailsDiffer();
  }

  /** While the accounts are the seeded ones (as in the initial state),
      signing in as the seeded admin with the seeded password yields an
      admin session. */
  lemma SeedAdminLogin(s: State, token: string)
    requires s.users == SeedUsers
    ensures Login(s, SeedAdmin.email, SeedAdmin.password, token).response
            == Response(200, Session(token, Public(SeedAdmin)))
  {
    var e := SeedAdmin.email;
    AdminEmailNormal();
    assert |s.users| == 2 && s.users[0] == SeedAdmin && s.users[1] == SeedCustomer;
    assert CredentialsMatch(SeedAdmin, e, SeedAdmin.password);
    assert !CredentialsMatch(SeedCustomer, e, SeedAdmin.password);
    LoginSingleMatch(s, e, SeedAdmin.password, token, 0);
  }

  /** With the seeded accounts, the admin email with any other password is
      refused with 401. */
  lemma SeedAdminWrongPassword(s: State, token: string, password: string)
    requires s.users == SeedUsers && password != SeedAdmin.password
    ensures Login(s, SeedAdmin.email, password, token).response == Response(401, Message("Invalid credentials"))
  {
    var e := SeedAdmin.email;
    AdminEmailNormal();
    assert |s.users| == 2 && s.users[0] == SeedAdmin && s.users[1] == SeedCustomer;
    assert !CredentialsMatch(SeedAdmin, e, password);
    assert !CredentialsMatch(SeedCustomer, e, password);
  }
}

=== FILE: shop.dfy ===
/** The catalog page's derived lists (frontend/src/app/pages/Shop.tsx:30-42):
    the category tabs, and the products shown for a category and sort order. */
module Shop {
  import opened Common
  import opened Domain

  const All: string := "All"
  const LowToHigh: string := "Price: Low to High"
  const HighToLow: string := "Price: High to Low"
  const Newest: string := "Newest"

  predicate NoDuplicates<T(==)>(s: seq<T>) {
    forall i, j :: 0 <= i < j < |s| ==> s[i] != s[j]
  }

  /** The position of the first occurrence of `x` in `s`. */
  function IndexOf<T(==)>(s: seq<T>, x: T): (r: nat)
    requires x in s
    ensures r < |s| && s[r] == x && x !in s[..r]
  {
    if s[0] == x then 0 else 1 + IndexOf(s[1..], x)
  }

  lemma {:induction false} IndexOfPrefix<T>(s: seq<T>, k: nat, x: T)
    requires k <= |s| && x in s[..k]
    ensures IndexOf(s, x) == IndexOf(s[..k], x) < k
  {
    if s[0] != x {
      assert s[1..][..k - 1] == s[..k][1..];
      IndexOfPrefix(s[1..], k - 1, x);
    }
  }

  /** The elements of `s` without repeats, in order of first occurrence: what
      iterating `new Set(s)` yields. */
  function Distinct(s: seq<string>): (r: seq<string>)
    ensures NoDuplicates(r)
    ensures forall x :: x in r <==> x in s
    ensures forall i, j :: 0 <= i < j < |r| ==> IndexOf(s, r[i]) < IndexOf(s, r[j])
  {
    if |s| == 0 then []
    else
      var init := s[..|s| - 1];
      var last := s[|s| - 1];
      var d := Distinct(init);
      assert s == init + [last];
      DistinctKeepsPositions(s, d);
      if last in d then d else d + [last]
  }

  /** Helper for Distinct: positions of elements of the prefix carry over to `s`. */
  lemma DistinctKeepsPositions(s: seq<string>, d: seq<string>)
    requires |s| > 0
    requires forall x :: x in d <==> x in s[..|s| - 1]
    ensures forall x :: x in d ==> IndexOf(s, x) == IndexOf(s[..|s| - 1], x) < |s| - 1
    ensures s[|s| - 1] !in d ==> IndexOf(s, s[|s| - 1]) == |s| - 1
  {
    var n := |s| - 1;
    forall x | x in d
      ensures IndexOf(s, x) == IndexOf(s[..n], x) < n
    {
      IndexOfPrefix(s, n, x);
    }
    if s[n] !in d {
      var r := IndexOf(s, s[n]);
      assert forall j :: 0 <= j < n ==> s[..n][j] == s[j];
      assert forall j :: 0 <= j < r ==> s[..r][j] == s[j];
    }
  }

  /** The category of each product, in catalog order. */
  function Categories(products: seq<Product>): seq<string> {
    seq(|products|, i requires 0 <= i < |products| => products[i].category)
  }

  /** `['All', ...new Set(products.map(p => p.category))]`: "All" followed by
      every category once, in order of first appearance. */
  function CategoryTabs(products: seq<Product>): (r: seq<string>)
    ensures |r| >= 1 && r[0] == All
    ensures NoDuplicates(r[1..])
    ensures forall i :: 0 <= i < |products| ==> products[i].category in r[1..]
    ensures forall c :: c in r[1..] <==> c in Categories(products)
    ensures forall i, j :: 1 <= i < j < |r| ==> IndexOf(Categories(products), r[i]) < IndexOf(Categories(products), r[j])
  {
    var cs := Categories(products);
    assert forall i :: 0 <= i < |products| ==> cs[i] == products[i].category;
    var d := Distinct(cs);
    assert ([All] + d)[1..] == d;
    [All] + d
  }

  /** `products.filter(p => p.category === category)`. */
  function InCategory(products: seq<Product>, category: string): (r: seq<Product>)
    ensures SubsequenceOf(r, products)
    ensures forall p :: multiset(r)[p] == if p.category == category then multiset(products)[p] else 0
  {
    if |products| == 0 then []
    else
      var rest := InCategory(products[1..], category);
      assert products == [products[0]] + products[1..];
      if products[0].category == category then [products[0]] + rest else rest
  }

  /** The comparator's order: ascending price, or descending for `desc`. */
  predicate InOrder(a: Product, b: Product, desc: bool) {
    if desc then a.price >= b.price else a.price <= b.price
  }

  predicate SortedBy(s: seq<Product>, desc: bool) {
    forall i, j :: 0 <= i < j < |s| ==> InOrder(s[i], s[j], desc)
  }

  /** Inserts `x` before the first element it may precede, so elements that
      compare equal keep their relative order. */
  function Insert(x: Product, s: seq<Product>, desc: bool): (r: seq<Product>)
    requires SortedBy(s, desc)
    ensures SortedBy(r, desc)
    ensures multiset(r) == multiset(s) + multiset{x}
  {
    if |s| == 0 then [x]
    else if InOrder(x, s[0], desc) then
      assert forall k :: 0 <= k < |s| ==> InOrder(x, s[k], desc);
      SortedCons(x, s, desc);
      [x] + s
    else
      var rest := Insert(x, s[1..], desc);
      assert s == [s[0]] + s[1..];
      InsertHeadInOrder(x, s, rest, desc);
      SortedCons(s[0], rest, desc);
      [s[0]] + rest
  }

  /** An element that may precede every element of a sorted sequence can be put in front. */
  lemma SortedCons(h: Product, t: seq<Product>, desc: bool)
    requires SortedBy(t, desc)
    requires forall k :: 0 <= k < |t| ==> InOrder(h, t[k], desc)
    ensures SortedBy([h] + t, desc)
  {
    var r := [h] + t;
    forall i, j | 0 <= i < j < |r|
      ensures InOrder(r[i], r[j], desc)
    {
      assert r[j] == t[j - 1];
      if i > 0 {
        assert r[i] == t[i - 1];
      }
    }
  }

  /** Helper for Insert: the head of `s` may precede everything inserted after it. */
  lemma InsertHeadInOrder(x: Product, s: seq<Product>, rest: seq<Product>, desc: bool)
    requires |s| > 0 && SortedBy(s, desc) && !InOrder(x, s[0], desc)
    requires multiset(rest) == multiset(s[1..]) + multiset{x}
    ensures forall k :: 0 <= k < |rest| ==> InOrder(s[0], rest[k], desc)
  {
    forall k | 0 <= k < |rest|
      ensures InOrder(s[0], rest[k], desc)
    {
      assert rest[k] in multiset(rest);
      if rest[k] != x {
        assert rest[k] in multiset(s[1..]);
        var m :| 0 <= m < |s[1..]| && s[1..][m] == rest[k];
        assert s[m + 1] == rest[k];
      }
    }
  }

  /** `[...s].sort((a, b) => a.price - b.price)` (or `b.price - a.price` for
      `desc`): a stable sort by price. */
  function SortByPrice(s: seq<Product>, desc: bool): (r: seq<Product>)
    ensures SortedBy(r, desc)
    ensures multiset(r) == multiset(s)
  {
    if |s| == 0 then []
    else
      assert s == [s[0]] + s[1..];
      Insert(s[0], SortByPrice(s[1..], desc), desc)
  }

  /** The `filteredProducts` memo: the products of the selected category
      ("All" keeps every product, in order), sorted by price when a price
      order is chosen and otherwise left as they are. For "Newest" the order
      is the JavaScript engine's (its comparator is inconsistent), which is
      reported as None. */
  function FilteredProducts(products: seq<Product>, category: string, sortBy: string): (r: Option<seq<Product>>)
    ensures r.None? <==> sortBy == Newest
    ensures r.Some? && (category == All) && sortBy != LowToHigh && sortBy != HighToLow ==> r.value == products
    ensures r.Some? && category != All && sortBy != LowToHigh && sortBy != HighToLow ==>
      r.value == InCategory(products, category)
    ensures sortBy == LowToHigh ==> r.Some? && SortedBy(r.value, false)
    ensures sortBy == HighToLow ==> r.Some? && SortedBy(r.value, true)
    ensures r.Some? ==>
      forall p :: multiset(r.value)[p] == if category == All || p.category == category then multiset(products)[p] else 0
  {
    var result := if category == All then products else InCategory(products, category);
    if sortBy == LowToHigh then Some(SortByPrice(result, false))
    else if sortBy == HighToLow then Some(SortByPrice(result, true))
    else if sortBy == Newest then None
    else Some(result)
  }
}

=== FILE: strings.dfy ===
/** The string operations the backend applies to request fields:
    ECMAScript `trim`, `toLowerCase`, `startsWith` and `split("@")[0]`. */
module Strings {

  /** The characters ECMAScript's `String.prototype.trim` strips: the
      WhiteSpace and LineTerminator code points of ECMA-262 (tab, vertical
      tab, form feed, space, no-break space, byte order mark, the Unicode
      space separators, line feed, carriage return, line and paragraph
      separators). */
  predicate IsSpace(c: char) {
    || c == '\t' || c == '\n' || c == '\U{B}' || c == '\U{C}' || c == '\r' || c == ' '
    || c == '\U{A0}' || c == '\U{1680}' || ('\U{2000}' <= c <= '\U{200A}')
    || c == '\U{2028}' || c == '\U{2029}' || c == '\U{202F}' || c == '\U{205F}'
    || c == '\U{3000}' || c == '\U{FEFF}'
  }

  /** Every character of `s` is stripped by `trim`. */
  predicate Blank(s: string) {
    forall i :: 0 <= i < |s| ==> IsSpace(s[i])
  }

  /** Strips leading spaces: the result is the suffix of `s` left after a blank prefix. */
  function TrimStart(s: string): (r: string)
    ensures |r| <= |s| && r == s[|s| - |r|..]
    ensures Blank(s[..|s| - |r|])
    ensures |r| > 0 ==> !IsSpace(r[0])
  {
    if |s| > 0 && IsSpace(s[0]) then TrimStart(s[1..]) else s
  }

  /** Strips trailing spaces: the result is the prefix of `s` before a blank suffix. */
  function TrimEnd(s: string): (r: string)
    ensures |r| <= |s| && r == s[..|r|]
    ensures Blank(s[|r|..])
    ensures |r| > 0 ==> !IsSpace(r[|r| - 1])
  {
    if |s| > 0 && IsSpace(s[|s| - 1]) then TrimEnd(s[..|s| - 1]) else s
  }

  function Trim(s: string): string {
    TrimEnd(TrimStart(s))
  }

  /** `String(x).trim().length > 0`, the presence test the backend applies
      to address fields, holds exactly when `x` has a non-space character. */
  lemma TrimEmptyIffBlank(s: string)
    ensures Trim(s) == [] <==> Blank(s)
  {
    if Blank(s) {
      BlankTrimsToEmpty(s);
    } else {
      var i :| 0 <= i < |s| && !IsSpace(s[i]);
      NonSpaceSurvivesTrim(s, i);
    }
  }

  lemma BlankTrimsToEmpty(s: string)
    requires Blank(s)
    ensures Trim(s) == []
  {
  }

  lemma NonSpaceSurvivesTrim(s: string, i: nat)
    requires i < |s| && !IsSpace(s[i])
    ensures Trim(s) != []
  {
    var t := TrimStart(s);
    var k := |s| - |t|;
    assert t[i - k] == s[i];
  }

  /** Trimming leaves no space at either end and only removes spaces. */
  lemma TrimShape(s: string)
    ensures |Trim(s)| > 0 ==> !IsSpace(Trim(s)[0]) && !IsSpace(Trim(s)[|Trim(s)| - 1])
    ensures |Trim(s)| <= |s|
  {
    var t := TrimStart(s);
    var e := TrimEnd(t);
    if |e| > 0 {
      assert e[0] == t[0];
    }
  }

  /** A string with a non-space character at both ends is left alone by `trim`. */
  lemma TrimOfTrimmed(s: string)
    requires |s| > 0 && !IsSpace(s[0]) && !IsSpace(s[|s| - 1])
    ensures Trim(s) == s
  {
  }

  predicate IsUpper(c: char) {
    'A' <= c <= 'Z'
  }

  /** `toLowerCase` on one character: a capital ASCII letter becomes its small
      letter, 32 code points on; every other character is kept. */
  function LowerChar(c: char): (r: char)
    ensures !IsUpper(r)
    ensures IsUpper(c) ==> 'a' <= r <= 'z' && r as int == c as int + 32
    ensures !IsUpper(c) ==> r == c
  {
    if IsUpper(c) then (c as int - 'A' as int + 'a' as int) as char else c
  }

  /** `toLowerCase`, for the ASCII letters. */
  function Lower(s: string): string {
    seq(|s|, i requires 0 <= i < |s| => LowerChar(s[i]))
  }

  /** Two characters are equal up to ASCII case. */
  predicate SameIgnoringCase(a: char, b: char) {
    || a == b
    || (IsUpper(a) && b as int == a as int + 32)
    || (IsUpper(b) && a as int == b as int + 32)
  }

  lemma LowerCharEqual(a: char, b: char)
    ensures LowerChar(a) == LowerChar(b) <==> SameIgnoringCase(a, b)
  {
  }

  /** Comparing lower cases, as the backend does with emails, is equality up
      to ASCII case: same length, and at each position the same character or
      the same letter in the other case. */
  lemma LowerEqualIgnoringCase(a: string, b: string)
    ensures Lower(a) == Lower(b) <==> |a| == |b| && forall i :: 0 <= i < |a| ==> SameIgnoringCase(a[i], b[i])
  {
    if Lower(a) == Lower(b) {
      forall i | 0 <= i < |a|
        ensures SameIgnoringCase(a[i], b[i])
      {
        assert Lower(a)[i] == Lower(b)[i];
        LowerCharEqual(a[i], b[i]);
      }
    }
    if |a| == |b| && forall i :: 0 <= i < |a| ==> SameIgnoringCase(a[i], b[i]) {
      forall i | 0 <= i < |a|
        ensures Lower(a)[i] == Lower(b)[i]
      {
        LowerCharEqual(a[i], b[i]);
      }
    }
  }

  /** Lower-casing twice is lower-casing once; the backend relies on this when
      it stores an already lower-cased email and later compares its lower case. */
  lemma LowerIdempotent(s: string)
    ensures Lower(Lower(s)) == Lower(s)
  {
  }

  /** A text without upper-case ASCII letters is its own lower case. */
  lemma LowerOfLowercase(s: string)
    requires forall i :: 0 <= i < |s| ==> !IsUpper(s[i])
    ensures Lower(s) == s
  {
  }

  predicate StartsWith(s: string, prefix: string) {
    |prefix| <= |s| && s[..|prefix|] == prefix
  }

  /** `s.split("@")[0]`: everything before the first `@`. */
  function LocalPart(s: string): (r: string)
    ensures |r| <= |s| && r == s[..|r|]
    ensures '@' !in r
    ensures |r| < |s| ==> s[|r|] == '@'
    ensures '@' !in s ==> r == s
  {
    if |s| == 0 || s[0] == '@' then [] else [s[0]] + LocalPart(s[1..])
  }
}

=== FILE: validation.dfy ===
/** The backend's two input helpers (backend/server/index.js:134-144):
    `normalizeDiscount` and `isValidAddress`. */
module Validation {
  import opened Common
  import Strings
  import Pricing
  import opened Domain

  /** What `Number(value || 0)` can produce from a JSON value: a missing or
      falsy value reads as 0, a non-numeric string as NaN, and a numeric
      string or number as itself, possibly infinite. */
  datatype NumInput = Missing | NotANumber | Finite(value: real) | Infinite(positive: bool)

  /** `normalizeDiscount`: the number clamped to [0, 90], with missing and NaN read as 0. */
  function NormalizeDiscount(v: NumInput): (r: real)
    ensures 0.0 <= r <= 90.0
    ensures v.Missing? || v.NotANumber? ==> r == 0.0
    ensures v.Finite? && 0.0 <= v.value <= 90.0 ==> r == v.value
    ensures v.Finite? && v.value < 0.0 ==> r == 0.0
    ensures v.Finite? && v.value > 90.0 ==> r == 90.0
    ensures v == Infinite(true) ==> r == 90.0
    ensures v == Infinite(false) ==> r == 0.0
  {
    match v
    case Missing => 0.0
    case NotANumber => 0.0
    case Finite(x) => Clamp(x, 0.0, 90.0)
    case Infinite(positive) => if positive then 90.0 else 0.0
  }

  /** Normalising a stored (already normalised) discount changes nothing, and
      the backend's clamp is the one the storefront applies when it prices a
      product (frontend/src/app/lib/pricing.ts:2). */
  lemma NormalizeDiscountAgrees(v: NumInput, x: real)
    ensures NormalizeDiscount(Finite(NormalizeDiscount(v))) == NormalizeDiscount(v)
    ensures NormalizeDiscount(Finite(x)) == Pricing.SafeDiscount(Some(x))
  {
  }

  /** The seven fields a shipping address must carry. */
  const RequiredAddressKeys: seq<string> := ["fullName", "phone", "addressLine", "city", "state", "zipCode", "country"]

  /** `String(address[key] || "")`: an absent field reads as the empty string. */
  function FieldText(fields: map<string, string>, key: string): string {
    if key in fields then fields[key] else ""
  }

  /** `keys.every(key => String(address[key] || "").trim().length > 0)`. */
  function EveryFieldPresent(fields: map<string, string>, keys: seq<string>): (r: bool)
    ensures r <==> forall i :: 0 <= i < |keys| ==> !Strings.Blank(FieldText(fields, keys[i]))
  {
    if |keys| == 0 then true
    else
      Strings.TrimEmptyIffBlank(FieldText(fields, keys[0]));
      |Strings.Trim(FieldText(fields, keys[0]))| > 0 && EveryFieldPresent(fields, keys[1..])
  }

  /** `isValidAddress`: the input is an object and each of the seven required
      fields has a character other than white space. */
  function IsValidAddress(a: AddressInput): (r: bool)
    ensures r <==> a.Fields? && forall k :: k in RequiredAddressKeys ==> !Strings.Blank(FieldText(a.fields, k))
  {
    a.Fields? && EveryFieldPresent(a.fields, RequiredAddressKeys)
  }

  /** Blanking any one required field invalidates an otherwise valid address. */
  lemma BlankFieldInvalidates(fields: map<string, string>, k: string, blank: string)
    requires k in RequiredAddressKeys && Strings.Blank(blank)
    ensures !IsValidAddress(Fields(fields[k := blank]))
  {
    assert FieldText(fields[k := blank], k) == blank;
  }
}
